=== FILE: README.md ===
# petl_django adapter core, modelled in Dafny

petl_django moves tables between petl and the Django ORM. This project models the
decision logic of `petl_django/django_view.py` over plain datatypes. A model
instance is a finite map from settable field name to value. A table is a header
plus rows. A queryset is a sequence of records.

- `values.dfy`: cell values, `Option`, `Result`, and the table.
- `value_maps.dfy`: the per-row `dict(zip(headers, row))`. It is an
  insertion-ordered map, so a later duplicate header wins the value and keeps
  its first position.
- `models.dfy`: model classes and instances, `_will_model_change`,
  `_apply_value_map` with `UnableToApplyValueMapError`, and the constructor
  `model(**value_map)`.
- `chunking.dfy`: `DEFAULTS`, `_get_setting`, and `_chunked_bulk_create`.
  Storage answers to each bulk call are a parameter.
- `write_view.dfy`: `todjango` as a fold over the rows. Its state is the
  existing-instance map, the saved updates, the immediate creates, the deferred
  list and the update count. Then comes the bulk insert and the reported counts.
- `read_view.dfy`: `_iter_django_model` and `_get_model_field_names`.
- `scenario.dfy`: a worked run. The stored `Person(1, "Alice", 30)` is updated
  and `Bob` is created through one bulk call.

Storage is a parameter everywhere. `save()` and `bulk_create()` are boolean
oracles: true means the storage accepted the instance or chunk. An answer may
depend on the run's history. A `save()` answer sees the loop state before the
row, which records every update and create saved so far. A `bulk_create()`
answer sees the loop's final state and the bulk calls already accepted. So a
unique constraint that rejects a second identical insert can be expressed. The
stored instances and the configured chunk setting are inputs.

## Model

| member | source | states |
|---|---|---|
| Chunking.ChunkedBulkCreate | petl_django/django_view.py:144-156 | The size is the explicit one, else the setting, else 50. Size 0 raises before any call, even for an empty list. A negative size inserts nothing. With a positive size C, the run completes exactly when the storage accepts every slice at offsets 0, C, 2C…, each after the slices before it. Then the calls are exactly those slices and rebuild the list. On a failure, the calls made are the slices before the refused one, and the storage accepted each of them. The refused slice is attached to the error as `petl_chunk_data`, and the calls made plus that slice form a prefix of the list. An empty list makes no call. |
| Chunking.Chunks | petl_django/django_view.py:149-152 | Every slice is non-empty and at most C long, and all but the last are exactly C long. |
| Chunking.ChunksCover | petl_django/django_view.py:149-152 | The slices, concatenated in order, equal the deferred list. |
| Chunking.ChunkCount | petl_django/django_view.py:149 | There are ceil(N / C) slices, one per offset of `range(0, N, C)`. |
| Chunking.ChunkAt | petl_django/django_view.py:149-152 | Slice k is `xs[k*C : k*C + C]`, clipped to the end of the list. |
| Chunking.RangeSlices | petl_django/django_view.py:149-152 | The `range` loop collects exactly the chunk list: it covers the input in order and every slice is between 1 and C long. |
| Chunking.Issue | petl_django/django_view.py:149-156 | Calls are issued in order, each after the storage has accepted the ones before it. The run completes exactly when the storage accepts every chunk given the earlier ones. Otherwise it stops at the first refused chunk, which becomes `petl_chunk_data`, after the accepted chunks before it. |
| Models.FirstMismatch | petl_django/django_view.py:162-163 | A reference definition: every entry before the returned index agrees with the instance, and the entry at it does not. |
| Models.WillChange | petl_django/django_view.py:159-165 | The first entry the instance does not agree with decides the answer. If there is none, the answer is false. If that entry's field is readable, the answer is true. If it is unreadable, the result is the `AttributeError` naming that field. |
| Models.WillChangeIffSomeFieldDiffers | petl_django/django_view.py:159-165 | If the instance can read every key of the map, the check succeeds and is true exactly when some key's instance value differs from the map's value. |
| Models.NoChangeIffAllAgree | petl_django/django_view.py:162-165 | The answer is false exactly when every entry agrees with the instance. |
| Models.ApplyValueMap | petl_django/django_view.py:168-176 | The apply succeeds exactly when every key is a settable field. Then every key reads back its map value, every field outside the map is unchanged, and the class and field set are kept. On failure, the error names the first key the instance cannot accept and the class's model name. Every key before it was accepted, and the instance is left with exactly those earlier entries written. |
| Models.ApplyThenNoChange | petl_django/django_view.py:95-96 | After a successful apply, checking the same map reports no change. |
| Models.Construct | petl_django/django_view.py:106 | `model(**value_map)` succeeds exactly when every key is a field of the class. The new instance has every field: the map's value where the map names the field, otherwise the field's default. On failure, the error lists exactly the unexpected keys, and the list is non-empty. |
| Models.UnexpectedKeys | petl_django/django_view.py:106 | A key is listed exactly when the map names it and it is not a field. |
| ValueMaps.BuildValueMapSpec | petl_django/django_view.py:90 | `dict(zip(headers, row))` holds exactly the headers that have a cell, so the row is cut to the shorter of the two. It has at most that many entries. A repeated header takes the value of its last column, and the keys are listed in the order of their first column. |
| ValueMaps.FromPairs | petl_django/django_view.py:90 | Building a dict from pairs keeps exactly the keys of the pairs. Each key holds the value of its last assignment and sits at the position of its first one, so the keys are ordered by first occurrence. |
| ValueMaps.FirstIndex | petl_django/django_view.py:90 | A reference definition: the position of the first pair naming a key, which every earlier pair does not name, or the length when no pair names it. |
| ValueMaps.DuplicateHeaderKeepsFirstPosition | petl_django/django_view.py:90 | `dict(zip(["a", "b", "a"], [1, 2, 3]))` is `{"a": 3, "b": 2}` in that order: the repeated header takes the last value and keeps the first position. |
| ValueMaps.FromDistinctPairs | petl_django/django_view.py:90 | Pairs with distinct keys build the dict that lists exactly them, in order. |
| ValueMaps.Put | petl_django/django_view.py:90 | `vm[k] = v` adds k, and k then holds v. Every other key is unchanged. A new key is appended, and an existing key keeps its position. |
| ValueMaps.Get | petl_django/django_view.py:91 | `get` finds nothing exactly when the key is absent, and what it finds is an entry of the map. |
| ValueMaps.GetOrNone | petl_django/django_view.py:91 | The primary-key lookup gives `None` when the pk column is absent, and otherwise the entry's value. |
| WriteView.Step | petl_django/django_view.py:89-114 | One row either raises and leaves the state as it was, or completes. The row goes to the update branch exactly when `update` is on and its key is loaded, and to the create branch otherwise. A completed row routed to an update touches only its own instance and adds no create. It either changes nothing or saves one update and counts it. A completed row routed to a create is built from its value map and is deferred when bulk create is on, or saved at once when it is off. |
| WriteView.UpdateRow | petl_django/django_view.py:93-104 | The update branch, case by case. An unreadable field raises `AttributeError`. No change completes with the state untouched. A field the instance cannot set raises `UnableToApplyValueMapError` with the message naming the field and the model. A refused save raises with the value map attached. An accepted save stores the applied instance, records it and counts one update. |
| WriteView.CreateRow | petl_django/django_view.py:105-114 | The create branch, case by case. An unexpected keyword raises `TypeError` naming the keys. Otherwise the new instance is appended to the deferred list when bulk create is on, is recorded as created when it is off and the save is accepted, and raises with the value map attached when the save is refused. |
| WriteView.StepUpdateCases | petl_django/django_view.py:93-104 | A completed update row either found no change and left the state alone, or applied the map, had the save accepted, stored the new instance, recorded it and counted exactly one update. |
| WriteView.StepSavesUpdate | petl_django/django_view.py:93-104 | A matched row with a change that applies and saves records exactly that update and increments the count. |
| WriteView.StepDefersCreate | petl_django/django_view.py:105-108 | With bulk create on, an unmatched row's new instance is appended to the deferred list, and nothing else changes. |
| WriteView.ProcessRows | petl_django/django_view.py:89-114 | The loop never adds or removes a key of the existing map, and the lists only grow at their ends. The update count grows by the number of saved updates. With bulk create on, nothing is saved as a create. With it off, nothing is deferred. With `update` off, no instance is touched. |
| WriteView.CompletedEveryStep | petl_django/django_view.py:89-114 | If the loop completes, every row completes when it is processed in the state left by the rows before it. |
| WriteView.RaisedAtFailingStep | petl_django/django_view.py:89-114 | If the loop raises, some row i does. The rows before i completed and left exactly the state attached to the error, and row i raises that error from that state. So the loop stops at the first failing row. |
| WriteView.CompletesIffEveryStepCompletes | petl_django/django_view.py:89-114 | The loop completes exactly when no row raises in the state the earlier rows left it. |
| WriteView.Partition | petl_django/django_view.py:89-114 | In a completed loop, the new instances are the rows not routed to an update, built in row order against the keys loaded before the loop. New instances plus update-routed rows account for every row. The update count grows by at most the number of update-routed rows. |
| WriteView.NoUpdateAllCreates | petl_django/django_view.py:84-93 | With `update` off, every row becomes a new instance, no update is counted and the existing map is unchanged. |
| WriteView.SameNewPkCreatesBoth | petl_django/django_view.py:93-106 | In a completed loop, any two rows with the same primary key, which no stored instance has, are both routed to creation, and each is built into one new instance. |
| WriteView.CompletedRowBuilt | petl_django/django_view.py:105-106 | In a completed loop, every row not routed to an update was built by the constructor into exactly one new instance. |
| WriteView.MissingPkColumnCreates | petl_django/django_view.py:81-93 | If every stored instance has a primary key other than `None`, a row without the primary-key column has key `None` and is routed to creation. |
| WriteView.SameRowTwice | petl_django/django_view.py:93-104 | Repeating an update row right after itself changes nothing. |
| WriteView.SameRowLater | petl_django/django_view.py:89-104 | An update row repeated anywhere later in the table changes nothing the second time, provided no update row in between names the same instance. |
| WriteView.ProcessRowsAppend | petl_django/django_view.py:89 | The loop over `a + b` is the loop over `a`, then the loop over `b` from the state `a` left. |
| WriteView.DuplicateCreateRaises | petl_django/django_view.py:105-114 | With `update` and bulk create off, and a storage that refuses to save an instance already created in this run, two identical create rows save the first and raise on the second, with the row's value map attached and the first create kept. |
| WriteView.SecondRunUpdatesNothing | petl_django/django_view.py:89-104 | Suppose no two update rows name the same instance. A second run over the same rows, against the instances the first run left, saves and counts no update and leaves every instance as it was. |
| WriteView.LoadExisting | petl_django/django_view.py:81-82 | The existing map holds exactly the primary keys of the stored instances. An instance whose key does not recur later in the list is the one stored under that key. |
| WriteView.ToDjango | petl_django/django_view.py:58-121 | With `update` on and a primary key that is not a field, the run raises before touching anything. Otherwise the row loop runs over the table rows from the instances loaded from storage (none when `update` is off). If the loop raises, the run raises with no bulk call. If it completes with bulk create off, the run completes with the loop state, no bulk call and 0 created. With bulk create on, the bulk calls are the chunked insert of the deferred list, and the run completes exactly when that insert does. A zero size and a refused chunk become the run's error. A completed run reports the count of saved updates as updated, and the length of the deferred list as created. With `update` off, every row is created. |
| Scenario.PersonExample | petl_django/django_view.py:58-121 | Worked run. Alice (stored, age 30) is updated to 31, Bob is deferred and inserted by a single bulk call, and the counts are one updated and one created. |
| ReadView.IterDjangoModel | petl_django/django_view.py:40-55 | The header is the given fields, or the model's field names in declaration order. The rows succeed exactly when every header column is a field. Each row is one record projected onto exactly the header's columns, in queryset order. Otherwise the result is an error naming a header column that is not a field. |
| ReadView.ValuesList | petl_django/django_view.py:46 | `values_list(*cols)` projects every record onto the columns, in order. It fails exactly when some column is not a field, and with no columns it selects every field. |
| ReadView.IterAsWritten | petl_django/django_view.py:40-47 | The view as the code builds it. The header is the given fields or, when none are given, the model's field names. With a non-empty header, the rows succeed exactly when every header column is a field, and each is the record projected onto the header. With an empty header, the rows always succeed and each carries every field of the model. |
| ReadView.EmptyFieldsRowsWiderThanHeader | petl_django/django_view.py:41-46 | For every queryset of a model with at least one field, `fields=[]` gives an empty header, but the rows succeed, one per record, and each carries every field. |
| ReadView.IterAgreesUnlessEmptyFields | petl_django/django_view.py:40-47 | For every column list except the empty one, the corrected view equals the view as written. |

## Left out

- Django ORM calls (`save`, `bulk_create`, `objects.all`, `_meta`, `settings`). These become parameters: storage oracles, the stored instances, the configured chunk size as an `Option`, and the model class record. `values_list` is not a parameter. It is a fixed function over the queryset's records and accepts exactly the model's declared field names.
- ReadView.ValuesList: accepts only the model's declared field names. Django's `values_list` also accepts `pk`, attribute names such as `author_id` and `__` lookups, which the model reports as an error.
- The runtime type assertions on the queryset and the model class. The Dafny types enforce them.
- Logging, except the two counts, which are returned in `Report`.
- The exceptions raised by `save()` and `bulk_create()` are not modelled. Only their outcome is: the row's value map or the failing chunk is attached to the error.
- `table_iterator.next()`, a Python-2 call. The first table row is taken as the header. A table with no header row is not represented.
- The `create` argument of `todjango`. The code never reads it.
- `_get_model_column_names` and the `DjangoView`/`fromdjango` wrappers, which only forward their arguments. Also `setup.py`.
- Python equality quirks such as `1 == True`. Values compare structurally.
- Settable fields: the model treats the fields an instance holds as the only names it can read or set. A plain Python object would accept `setattr` of any name. The code's own `except AttributeError` branch is what the model follows.
- Django properties passed as constructor keyword arguments are not modelled. Such an argument is reported as an unexpected keyword.
- A chunk-size setting that is `None` or not an integer is not modelled. The setting is an `Option<int>`.
- ChunkedBulkCreate: a negative chunk size silently inserts nothing, as `range` with a negative step from 0 yields nothing. The model states this behaviour and does not treat it as an error.
- WriteView.SecondRunUpdatesNothing: stated on the existing map the first run left, not on a fresh reload from the database, and only when update-routed rows name distinct instances. Two rows with the same key and different values keep changing that instance.
- Concurrent writers and transactions: the code does no locking.

## Findings

| source | as written | input that shows it | evidently intended | confidence | as-written member | corrected member |
|---|---|---|---|---|---|---|
| petl_django/django_view.py:41-46 | `values_list(*column_names)` with `fields=[]` calls `values_list()` with no arguments, which selects every field | `fields=[]` on a model with field `id` and one record `id=1`: the header is `[]` and the row is `(1,)` | every row projected onto exactly the header's columns, so rows as wide as the header | medium, not executed | ReadView.IterAsWritten (exhibited by ReadView.EmptyFieldsRowsWiderThanHeader) | ReadView.IterDjangoModel |

=== FILE: chunking.dfy ===
/** `_chunked_bulk_create` and the setting it reads: the deferred new instances
    are inserted with one bulk call per contiguous slice of `chunk_size`
    elements, taken at offsets 0, C, 2C, ... as `range(0, len, chunk_size)`
    produces them. */
module Chunking {
  import opened Values

  /** `DEFAULTS['BULK_CREATE_CHUNK_SIZE']`, used when the settings do not name one. */
  const DefaultChunkSize := 50

  /** The chunk size `_chunked_bulk_create` uses: the explicit argument, else
      `_get_setting('BULK_CREATE_CHUNK_SIZE')`, which is the configured setting
      when there is one and the hard-coded default otherwise. */
  function ChunkSize(explicit: Option<int>, setting: Option<int>): int {
    match explicit
    case Some(c) => c
    case None => setting.GetOr(DefaultChunkSize)
  }

  /** The chunks laid end to end. */
  function Flatten<T>(cs: seq<seq<T>>): seq<T> {
    if cs == [] then [] else cs[0] + Flatten(cs[1..])
  }

  lemma {:induction false} FlattenAppend<T>(a: seq<seq<T>>, b: seq<seq<T>>)
    ensures Flatten(a + b) == Flatten(a) + Flatten(b)
  {
    if a == [] {
      assert a + b == b;
    } else {
      assert (a + b)[0] == a[0];
      assert (a + b)[1..] == a[1..] + b;
      FlattenAppend(a[1..], b);
    }
  }

  /** Euclidean division has a unique quotient. */
  lemma DivUnique(a: int, c: int, q: int, r: int)
    requires c > 0 && 0 <= r < c && a == q * c + r
    ensures a / c == q
  {
    var q0 := a / c;
    var r0 := a % c;
    assert a == q0 * c + r0;
    assert (q - q0) * c == r0 - r;
    MulSmall(q - q0, c);
  }

  lemma MulSmall(d: int, c: int)
    requires c > 0
    ensures d >= 1 ==> d * c >= c
    ensures d <= -1 ==> d * c <= -c
  {
  }

  lemma CeilStep(n: int, c: int)
    requires c > 0 && n > c
    ensures (n + c - 1) / c == (n - c + c - 1) / c + 1
  {
    var q := (n - 1) / c;
    var r := (n - 1) % c;
    assert n - 1 == q * c + r;
    assert n + c - 1 == (q + 1) * c + r;
    DivUnique(n + c - 1, c, q + 1, r);
    DivUnique(n - 1, c, q, r);
  }

  lemma CeilOne(n: int, c: int)
    requires c > 0 && 0 < n <= c
    ensures (n + c - 1) / c == 1
  {
    DivUnique(n + c - 1, c, 1, n - 1);
  }

  /** The slices `xs[i:i + c]` for the offsets `i` of `range(0, len(xs), c)`:
      each is non-empty and at most `c` long, all but the last are exactly `c`
      long, there are ceil(|xs| / c) of them, and laid end to end they are `xs`. */
  function Chunks<T>(xs: seq<T>, c: int): (cs: seq<seq<T>>)
    requires c > 0
    ensures forall i :: 0 <= i < |cs| ==> 0 < |cs[i]| <= c
    ensures forall i :: 0 <= i < |cs| - 1 ==> |cs[i]| == c
    decreases |xs|
  {
    if xs == [] then
      []
    else if |xs| <= c then
      [xs]
    else
      [xs[..c]] + Chunks(xs[c..], c)
  }

  /** Laid end to end, in order, the chunks are the input list. */
  lemma {:induction false} ChunksCover<T>(xs: seq<T>, c: int)
    requires c > 0
    ensures Flatten(Chunks(xs, c)) == xs
    decreases |xs|
  {
    if xs != [] && |xs| > c {
      var rest := Chunks(xs[c..], c);
      ChunksCover(xs[c..], c);
      assert ([xs[..c]] + rest)[1..] == rest;
      assert xs == xs[..c] + xs[c..];
    }
  }

  /** There are ceil(|xs| / c) chunks, one per offset of `range(0, len(xs), c)`. */
  lemma {:induction false} ChunkCount<T>(xs: seq<T>, c: int)
    requires c > 0
    ensures |Chunks(xs, c)| == (|xs| + c - 1) / c
    decreases |xs|
  {
    if xs == [] {
      DivUnique(c - 1, c, 0, c - 1);
    } else if |xs| <= c {
      CeilOne(|xs|, c);
    } else {
      CeilStep(|xs|, c);
      ChunkCount(xs[c..], c);
    }
  }

  /** Chunk `k` is the slice `xs[k * c : k * c + c]`, clipped to the end of `xs`. */
  lemma {:induction false} ChunkAt<T>(xs: seq<T>, c: int, k: int)
    requires c > 0 && 0 <= k < |Chunks(xs, c)|
    ensures k * c < |xs|
    ensures Chunks(xs, c)[k] == xs[k * c .. Min(k * c + c, |xs|)]
    decreases |xs|
  {
    if k > 0 {
      var rest := xs[c..];
      ChunkAt(rest, c, k - 1);
      var o := (k - 1) * c;
      assert o + c == k * c;
      SliceOfSuffix(xs, c, o, Min(o + c, |rest|));
    }
  }

  lemma SliceOfSuffix<T>(xs: seq<T>, c: int, lo: int, hi: int)
    requires 0 <= c <= |xs| && 0 <= lo <= hi <= |xs| - c
    ensures xs[c..][lo..hi] == xs[c + lo .. c + hi]
  {
  }

  /** Unrolls `Chunks` once at offset `i`. */
  lemma ChunksFrom<T>(xs: seq<T>, c: int, i: int)
    requires c > 0 && 0 <= i < |xs|
    ensures Chunks(xs[i..], c) == [xs[i .. Min(i + c, |xs|)]] + Chunks(xs[Min(i + c, |xs|)..], c)
  {
    var suffix := xs[i..];
    if |suffix| > c {
      assert suffix[c..] == xs[i + c..];
      assert suffix[..c] == xs[i .. i + c];
    } else {
      assert suffix == xs[i .. |xs|];
      assert xs[|xs|..] == [];
    }
  }

  /** One iteration of the range loop keeps the slices taken so far, followed by
      the chunks of what is left, equal to the chunks of the whole list. */
  lemma RangeStep<T>(xs: seq<T>, c: int, i: int, cs: seq<seq<T>>)
    requires c > 0 && 0 <= i < |xs|
    requires Chunks(xs, c) == cs + Chunks(xs[Min(i, |xs|)..], c)
    ensures Chunks(xs, c) == (cs + [xs[i .. Min(i + c, |xs|)]]) + Chunks(xs[Min(i + c, |xs|)..], c)
  {
    var later := Chunks(xs[Min(i + c, |xs|)..], c);
    ChunksFrom(xs, c, i);
    assert Min(i, |xs|) == i;
    assert cs + ([xs[i .. Min(i + c, |xs|)]] + later) == (cs + [xs[i .. Min(i + c, |xs|)]]) + later;
  }

  /** The `for i in range(0, len(xs), c)` loop of `_chunked_bulk_create`, collecting
      the slice `xs[i:i + c]` each iteration passes to `bulk_create`. */
  method RangeSlices<T>(xs: seq<T>, c: int) returns (cs: seq<seq<T>>)
    requires c > 0
    ensures Flatten(cs) == xs
    ensures forall k :: 0 <= k < |cs| ==> 0 < |cs[k]| <= c
    ensures cs == Chunks(xs, c)
  {
    cs := [];
    var i := 0;
    assert xs[Min(i, |xs|)..] == xs;
    while i < |xs|
      invariant 0 <= i
      invariant Chunks(xs, c) == cs + Chunks(xs[Min(i, |xs|)..], c)
      decreases |xs| - i
    {
      var chunk := xs[i .. Min(i + c, |xs|)];
      RangeStep(xs, c, i, cs);
      cs := cs + [chunk];
      i := i + c;
    }
    var tail := xs[Min(i, |xs|)..];
    assert |tail| == 0;
    assert Chunks(tail, c) == [];
    assert cs + [] == cs;
    ChunksCover(xs, c);
  }

  /** Why a bulk insert stopped: `range()` rejected a step of zero (before any
      call), or one bulk call failed; that chunk is attached to the error as
      `petl_chunk_data`. */
  datatype BulkError<T> = RangeStepZero | BulkFailed(petlChunkData: seq<T>)

  /** The bulk calls made, and the error that stopped them, if any. */
  datatype BulkOutcome<T> =
    | BulkDone(calls: seq<seq<T>>)
    | BulkRaised(error: BulkError<T>, calls: seq<seq<T>>)

  /** The storage's answer to one bulk call: given the calls it has already
      accepted in this insert, in order, and the chunk now sent, whether it
      inserts the chunk (rather than raising). */
  type BulkAnswers<!T> = (seq<seq<T>>, seq<T>) -> bool

  /** Issues one bulk call per chunk in order until one fails: every chunk is
      sent after the ones before it have been accepted. */
  function Issue<T>(chunks: seq<seq<T>>, accepts: BulkAnswers<T>): (r: BulkOutcome<T>)
    ensures r.BulkDone? <==> forall k :: 0 <= k < |chunks| ==> accepts(chunks[..k], chunks[k])
    ensures r.BulkDone? ==> r.calls == chunks
    ensures r.BulkRaised? ==>
      && r.error.BulkFailed?
      && |r.calls| < |chunks|
      && r.calls == chunks[..|r.calls|]
      && r.error.petlChunkData == chunks[|r.calls|]
      && !accepts(r.calls, chunks[|r.calls|])
      && (forall k :: 0 <= k < |r.calls| ==> accepts(chunks[..k], chunks[k]))
  {
    if chunks == [] then BulkDone([])
    else
      var n := |chunks| - 1;
      var front := chunks[..n];
      PrefixOfPrefix(chunks, n);
      match Issue(front, accepts)
      case BulkRaised(e, calls) => BulkRaised(e, calls)
      case BulkDone(calls) =>
        if accepts(front, chunks[n]) then
          assert front + [chunks[n]] == chunks;
          BulkDone(chunks)
        else BulkRaised(BulkFailed(chunks[n]), front)
  }

  /** Slicing a prefix of `chunks` is slicing `chunks`. */
  lemma PrefixOfPrefix<T>(chunks: seq<seq<T>>, n: nat)
    requires n <= |chunks|
    ensures forall k :: 0 <= k <= n ==> chunks[..n][..k] == chunks[..k]
    ensures forall k :: 0 <= k < n ==> chunks[..n][k] == chunks[k]
  {
  }

  /** The chunks issued up to and including a failed one cover a prefix of the input. */
  lemma FailedPrefix<T>(chunks: seq<seq<T>>, n: nat)
    requires n < |chunks|
    ensures Flatten(chunks[..n] + [chunks[n]]) <= Flatten(chunks)
  {
    var front := chunks[..n] + [chunks[n]];
    SplitAfter(chunks, n);
    FlattenAppend(front, chunks[n + 1..]);
  }

  lemma SplitAfter<T>(chunks: seq<seq<T>>, n: nat)
    requires n < |chunks|
    ensures chunks == (chunks[..n] + [chunks[n]]) + chunks[n + 1..]
  {
    assert chunks[..n + 1] == chunks[..n] + [chunks[n]];
    assert chunks == chunks[..n + 1] + chunks[n + 1..];
  }

  /** `_chunked_bulk_create(model, xs, explicit)` with the configured setting
      `setting`. A chunk size of zero raises before any call (even for an empty
      list); a negative one makes the range empty, so nothing is inserted; a
      positive one issues one call per slice, each non-empty and at most that
      size, covering `xs` in order, and no call at all for an empty list. */
  function ChunkedBulkCreate<T>(xs: seq<T>, explicit: Option<int>, setting: Option<int>,
                                accepts: BulkAnswers<T>): (r: BulkOutcome<T>)
    ensures var c := ChunkSize(explicit, setting);
      && (c == 0 ==> r == BulkRaised(RangeStepZero, []))
      && (c < 0 ==> r == BulkDone([]))
      && (xs == [] && c != 0 ==> r == BulkDone([]))
      && (c > 0 ==> forall k :: 0 <= k < |r.calls| ==> 0 < |r.calls[k]| <= c)
    ensures var c := ChunkSize(explicit, setting);
      c > 0 ==>
        var cs := Chunks(xs, c);
        && (r.BulkDone? <==> forall k :: 0 <= k < |cs| ==> accepts(cs[..k], cs[k]))
        && (r.BulkDone? ==> r.calls == cs && Flatten(r.calls) == xs)
        && (r.BulkRaised? ==>
              && r.error.BulkFailed?
              && |r.calls| < |cs|
              && r.calls == cs[..|r.calls|]
              && (forall k :: 0 <= k < |r.calls| ==> accepts(cs[..k], cs[k]))
              && r.error.petlChunkData == cs[|r.calls|]
              && !accepts(r.calls, r.error.petlChunkData)
              && Flatten(r.calls + [r.error.petlChunkData]) <= xs)
    ensures (explicit.None? && setting.None? &&
      forall k :: 0 <= k < |Chunks(xs, 50)| ==> accepts(Chunks(xs, 50)[..k], Chunks(xs, 50)[k])) ==>
      r == BulkDone(Chunks(xs, 50))
  {
    var c := ChunkSize(explicit, setting);
    if c == 0 then BulkRaised(RangeStepZero, [])
    else if c < 0 then BulkDone([])
    else
      var chunks := Chunks(xs, c);
      ChunksCover(xs, c);
      var r := Issue(chunks, accepts);
      if r.BulkRaised? then
        FailedPrefix(chunks, |r.calls|);
        r
      else r
  }
}

=== FILE: models.dfy ===
/** Model classes and model instances as the write adapter sees them: a class
    with its field names in declaration order and its primary-key field, and an
    instance as a finite map from settable field name to value. Also the two
    decision procedures over a value map and an instance, `_will_model_change`
    and `_apply_value_map`, and the class constructor `model(**value_map)`. */
module Models {
  import opened Values
  import opened ValueMaps

  /** A model class: `_meta.label` (used in log lines), `_meta.model_name`
      (used in error messages), the field names in declaration order, the name
      of the primary-key field, and the value `field.get_default()` gives each
      field. That includes implicit defaults, such as `""` for a `CharField`
      that is not nullable; a field missing from `defaults` defaults to
      `None`. */
  datatype ModelClass = ModelClass(
    metaLabel: string,
    modelName: string,
    fields: seq<string>,
    pk: string,
    defaults: map<string, Value>)

  /** A model instance: the `_meta.model_name` of its class and its attributes.
      The keys of `attrs` are the attributes that can be read and set. */
  datatype Instance = Instance(modelName: string, attrs: map<string, Value>)

  /** The field names of a class, as a set. */
  function FieldSet(m: ModelClass): set<string> {
    set f | f in m.fields
  }

  /** The value a field takes when the constructor is not given one. */
  function Default(m: ModelClass, f: string): Value {
    if f in m.defaults then m.defaults[f] else VNone
  }

  /** An attribute of an instance, `None` when the instance lacks it. */
  function Attr(inst: Instance, f: string): Value {
    if f in inst.attrs then inst.attrs[f] else VNone
  }

  /** `instance.pk`: the value of the primary-key field. */
  function PkOf(inst: Instance, pkName: string): Value {
    Attr(inst, pkName)
  }

  /** The instance can read the entry's field and holds the entry's value there. */
  predicate Agrees(e: Entry, inst: Instance) {
    e.0 in inst.attrs && inst.attrs[e.0] == e.1
  }

  /** The index of the first entry the instance does not agree with: a field it
      lacks or holds a different value in; `|vm|` when every entry agrees. */
  function FirstMismatch(vm: seq<Entry>, inst: Instance): (k: nat)
    ensures k <= |vm|
    ensures forall j :: 0 <= j < k ==> Agrees(vm[j], inst)
    ensures k < |vm| ==> !Agrees(vm[k], inst)
  {
    if vm == [] || !Agrees(vm[0], inst) then 0
    else 1 + FirstMismatch(vm[1..], inst)
  }

  /** `_will_model_change`: walks the value map in order and answers true at the
      first field whose instance value differs, false when every field agrees.
      Reading a field the instance does not have raises `AttributeError`,
      modelled as `Err` naming the field. The answer is decided by the first
      entry that does not agree: none gives false, a readable field gives
      true, an unreadable one gives the error. */
  function WillChange(vm: ValueMap, inst: Instance): (r: Result<bool, string>)
    ensures var k := FirstMismatch(vm, inst);
      && (r == Ok(false) <==> k == |vm|)
      && (r == Ok(true) <==> k < |vm| && vm[k].0 in inst.attrs)
      && (r.Err? <==> k < |vm| && vm[k].0 !in inst.attrs)
      && (r.Err? ==> k < |vm| && r.error == vm[k].0)
    decreases |vm|
  {
    if vm == [] then Ok(false)
    else if vm[0].0 !in inst.attrs then Err(vm[0].0)
    else if inst.attrs[vm[0].0] != vm[0].1 then Ok(true)
    else
      var tail: ValueMap := vm[1..];
      WillChange(tail, inst)
  }

  /** `_will_model_change` answers false exactly when every entry agrees with
      the instance. */
  lemma NoChangeIffAllAgree(vm: ValueMap, inst: Instance)
    ensures WillChange(vm, inst) == Ok(false) <==> forall i :: 0 <= i < |vm| ==> Agrees(vm[i], inst)
  {
  }

  /** When the instance has every field the value map names, `_will_model_change`
      succeeds and reports a change exactly when some field differs. */
  lemma WillChangeIffSomeFieldDiffers(vm: ValueMap, inst: Instance)
    requires Keys(vm) <= inst.attrs.Keys
    ensures WillChange(vm, inst).Ok?
    ensures WillChange(vm, inst).value <==> exists i :: 0 <= i < |vm| && inst.attrs[vm[i].0] != vm[i].1
  {
    var k := FirstMismatch(vm, inst);
    if k < |vm| {
      assert vm[k].0 in Keys(vm);
    }
  }

  /** `_will_model_change` of an empty value map is false. */
  lemma WillChangeEmpty(inst: Instance)
    ensures WillChange([], inst) == Ok(false)
  {
  }

  /** `out` is `inst` after assigning, in order, the entries of `written`: same
      class, same attributes, each written field holding its value, every other
      field untouched. */
  predicate WrittenFrom(out: Instance, written: ValueMap, inst: Instance) {
    && out.modelName == inst.modelName
    && out.attrs.Keys == inst.attrs.Keys
    && (forall i :: 0 <= i < |written| ==> written[i].0 in out.attrs && out.attrs[written[i].0] == written[i].1)
    && (forall f :: f in inst.attrs && f !in Keys(written) ==> out.attrs[f] == inst.attrs[f])
  }

  /** The result of `_apply_value_map`: the updated instance, or
      `UnableToApplyValueMapError` naming the field and the class's model name
      together with the instance as the raise left it (partially updated). */
  datatype ApplyOutcome =
    | Applied(inst: Instance)
    | Unable(field: string, modelName: string, partial: Instance)

  /** The message `UnableToApplyValueMapError` carries. */
  function UnableMessage(field: string, modelName: string): string {
    "Field " + field + " not present in model " + modelName
  }

  /** `_apply_value_map`: assigns the entries in order and returns the same
      instance; an entry whose field the instance cannot accept raises, after
      the entries before it have been written. */
  function ApplyValueMap(vm: ValueMap, inst: Instance): (r: ApplyOutcome)
    ensures r.Applied? <==> Keys(vm) <= inst.attrs.Keys
    ensures r.Applied? ==> WrittenFrom(r.inst, vm, inst)
    ensures r.Unable? ==>
      && r.modelName == inst.modelName
      && r.field !in inst.attrs
      && exists i :: (0 <= i < |vm| && vm[i].0 == r.field &&
        (forall j :: 0 <= j < i ==> vm[j].0 in inst.attrs) &&
        WrittenFrom(r.partial, vm[..i], inst))
    decreases |vm|
  {
    if vm == [] then
      Applied(inst)
    else if vm[0].0 !in inst.attrs then
      assert vm[..0] == [];
      assert vm[0].0 in Keys(vm);
      Unable(vm[0].0, inst.modelName, inst)
    else
      var tail: ValueMap := vm[1..];
      var next := Instance(inst.modelName, inst.attrs[vm[0].0 := vm[0].1]);
      var r := ApplyValueMap(tail, next);
      ApplyStep(vm, inst, next, r);
      r
  }

  lemma ApplyStep(vm: ValueMap, inst: Instance, next: Instance, r: ApplyOutcome)
    requires |vm| > 0 && vm[0].0 in inst.attrs
    requires next == Instance(inst.modelName, inst.attrs[vm[0].0 := vm[0].1])
    requires r.Applied? <==> Keys(vm[1..]) <= next.attrs.Keys
    requires r.Applied? ==> WrittenFrom(r.inst, vm[1..], next)
    requires r.Unable? ==>
      && r.modelName == next.modelName
      && r.field !in next.attrs
      && exists i :: (0 <= i < |vm[1..]| && vm[1..][i].0 == r.field &&
        (forall j :: 0 <= j < i ==> vm[1..][j].0 in next.attrs) &&
        WrittenFrom(r.partial, vm[1..][..i], next))
    ensures r.Applied? <==> Keys(vm) <= inst.attrs.Keys
    ensures r.Applied? ==> WrittenFrom(r.inst, vm, inst)
    ensures r.Unable? ==>
      && r.modelName == inst.modelName
      && r.field !in inst.attrs
      && exists i :: (0 <= i < |vm| && vm[i].0 == r.field &&
        (forall j :: 0 <= j < i ==> vm[j].0 in inst.attrs) &&
        WrittenFrom(r.partial, vm[..i], inst))
  {
    KeysCons(vm);
    HeadNotInTail(vm);
    assert next.attrs.Keys == inst.attrs.Keys;
    if r.Applied? {
      WrittenStep(vm, inst, next, r.inst);
    }
    if r.Unable? {
      var i :| 0 <= i < |vm[1..]| && vm[1..][i].0 == r.field &&
        (forall j :: 0 <= j < i ==> vm[1..][j].0 in next.attrs) &&
        WrittenFrom(r.partial, vm[1..][..i], next);
      assert vm[1..][..i] == vm[..i + 1][1..];
      var prefix: ValueMap := vm[..i + 1];
      WrittenStep(prefix, inst, next, r.partial);
      assert vm[i + 1] == vm[1..][i];
      assert forall j :: 0 <= j < i + 1 ==> vm[j].0 in inst.attrs by {
        forall j | 0 <= j < i + 1
          ensures vm[j].0 in inst.attrs
        {
          if j > 0 {
            assert vm[j] == vm[1..][j - 1];
          }
        }
      }
    }
  }

  /** Writing the head of `vm` and then the rest is writing all of `vm`. */
  lemma WrittenStep(vm: ValueMap, inst: Instance, next: Instance, out: Instance)
    requires |vm| > 0 && vm[0].0 in inst.attrs
    requires next == Instance(inst.modelName, inst.attrs[vm[0].0 := vm[0].1])
    requires WrittenFrom(out, vm[1..], next)
    ensures WrittenFrom(out, vm, inst)
  {
    KeysCons(vm);
    HeadNotInTail(vm);
    forall i | 0 <= i < |vm|
      ensures vm[i].0 in out.attrs && out.attrs[vm[i].0] == vm[i].1
    {
      if i > 0 {
        assert vm[i] == vm[1..][i - 1];
      }
    }
  }

  /** Applying a value map and then asking whether it would change the instance
      answers no: a second identical row finds nothing to update. */
  lemma ApplyThenNoChange(vm: ValueMap, inst: Instance)
    requires ApplyValueMap(vm, inst).Applied?
    ensures WillChange(vm, ApplyValueMap(vm, inst).inst) == Ok(false)
  {
  }

  /** The keys of `vm`, in order, that are not fields of the class. */
  function UnexpectedKeys(vm: seq<Entry>, fields: set<string>): (bad: seq<string>)
    ensures forall f :: f in bad <==> f in Keys(vm) && f !in fields
  {
    if vm == [] then []
    else
      KeysCons(vm);
      (if vm[0].0 in fields then [] else [vm[0].0]) + UnexpectedKeys(vm[1..], fields)
  }

  /** `model(**value_map)`: a new instance with every field of the class, taking
      the value-map value where there is one and the field default otherwise.
      A key that is not a field makes the constructor raise `TypeError`, modelled
      as `Err` listing the unexpected keys. */
  function Construct(m: ModelClass, vm: ValueMap): (r: Result<Instance, seq<string>>)
    ensures r.Ok? <==> Keys(vm) <= FieldSet(m)
    ensures r.Ok? ==> r.value.modelName == m.modelName && r.value.attrs.Keys == FieldSet(m)
    ensures r.Ok? ==> forall i :: 0 <= i < |vm| ==> Agrees(vm[i], r.value)
    ensures r.Ok? ==> forall f :: f in FieldSet(m) && f !in Keys(vm) ==> r.value.attrs[f] == Default(m, f)
    ensures r.Err? ==> |r.error| > 0 && forall f :: f in r.error <==> f in Keys(vm) && f !in FieldSet(m)
  {
    var bad := UnexpectedKeys(vm, FieldSet(m));
    if bad != [] then
      assert bad[0] in bad;
      Err(bad)
    else
      var inst := Instance(m.modelName, map f | f in FieldSet(m) :: Get(vm, f).GetOr(Default(m, f)));
      forall i | 0 <= i < |vm|
        ensures Agrees(vm[i], inst)
      {
        assert vm[i].0 in Keys(vm);
        GetEntry(vm, i);
      }
      Ok(inst)
  }
}

=== FILE: read_view.dfy ===
/** The read adapter, `fromdjango` / `_iter_django_model`: a queryset seen as a
    table whose header is the selected column names and whose rows are the
    records' values for those columns, in queryset order. */
module ReadView {
  import opened Values
  import opened Models

  /** A queryset: the model class it selects from and its records in the order
      the query returns them. */
  datatype QuerySet = QuerySet(model: ModelClass, records: seq<Instance>)

  /** What iterating the view produces: the header row, which is yielded first,
      then either the data rows or the `FieldError` that `values_list` raises
      for a column name the queryset's model does not have. */
  datatype View = View(header: seq<string>, body: Result<seq<seq<Value>>, string>)

  /** `_get_model_field_names`: the field names in declaration order. */
  function FieldNames(m: ModelClass): seq<string> {
    m.fields
  }

  /** One record as the tuple of its values for `cols`. */
  function Project(r: Instance, cols: seq<string>): (row: seq<Value>)
    ensures |row| == |cols|
    ensures forall j :: 0 <= j < |cols| ==> row[j] == Attr(r, cols[j])
  {
    seq(|cols|, j requires 0 <= j < |cols| => Attr(r, cols[j]))
  }

  /** The first column name that is not a field of the model, if any. */
  function FirstUnknown(m: ModelClass, cols: seq<string>): (r: Option<string>)
    ensures r.None? <==> forall j :: 0 <= j < |cols| ==> cols[j] in FieldSet(m)
    ensures r.Some? ==> r.value in cols && r.value !in FieldSet(m)
  {
    if cols == [] then None
    else if cols[0] !in FieldSet(m) then Some(cols[0])
    else
      var r := FirstUnknown(m, cols[1..]);
      assert forall j :: 1 <= j < |cols| ==> cols[j] == cols[1..][j - 1];
      r
  }

  /** `queryset.all().values_list(*cols)` as the code calls it: a column the
      model does not have raises; an empty column list selects every field of
      the queryset's model, in declaration order. */
  function ValuesList(qs: QuerySet, cols: seq<string>): (r: Result<seq<seq<Value>>, string>)
    ensures cols == [] ==> r == Ok(seq(|qs.records|, i requires 0 <= i < |qs.records| =>
      Project(qs.records[i], FieldNames(qs.model))))
    ensures cols != [] ==> (r.Ok? <==> forall j :: 0 <= j < |cols| ==> cols[j] in FieldSet(qs.model))
    ensures cols != [] && r.Ok? ==>
      && |r.value| == |qs.records|
      && forall i :: 0 <= i < |qs.records| ==> r.value[i] == Project(qs.records[i], cols)
  {
    var selected := if cols == [] then FieldNames(qs.model) else cols;
    match FirstUnknown(qs.model, selected)
    case Some(f) => Err(f)
    case None =>
      Ok(seq(|qs.records|, i requires 0 <= i < |qs.records| => Project(qs.records[i], selected)))
  }

  /** The column names of the view: the explicit `fields`, or the model's
      field names when none are given. */
  function ColumnNames(model: ModelClass, fields: Option<seq<string>>): seq<string> {
    match fields
    case Some(cols) => cols
    case None => FieldNames(model)
  }

  /** `_iter_django_model` exactly as written: the header is the column names,
      and the rows come from `values_list(*column_names)`. For a non-empty
      column list the rows are the records projected onto the header, or the
      error for a column that is not a field; for an empty column list
      `values_list()` selects every field, so the rows are the records
      projected onto all of the queryset model's fields. */
  function IterAsWritten(model: ModelClass, qs: QuerySet, fields: Option<seq<string>>): (v: View)
    ensures v.header == ColumnNames(model, fields)
    ensures v.header != [] ==>
      (v.body.Ok? <==> forall j :: 0 <= j < |v.header| ==> v.header[j] in FieldSet(qs.model))
    ensures v.header != [] && v.body.Ok? ==>
      && |v.body.value| == |qs.records|
      && forall i :: 0 <= i < |qs.records| ==> v.body.value[i] == Project(qs.records[i], v.header)
    ensures v.header == [] ==>
      && v.body.Ok?
      && |v.body.value| == |qs.records|
      && forall i :: 0 <= i < |qs.records| ==> v.body.value[i] == Project(qs.records[i], qs.model.fields)
  {
    var cols := ColumnNames(model, fields);
    View(cols, ValuesList(qs, cols))
  }

  /** With an explicit empty field list the view as written yields an empty
      header followed, for every record, by a row that carries every field of
      the queryset's model: whenever the model has a field, each row is wider
      than the header. */
  lemma EmptyFieldsRowsWiderThanHeader(model: ModelClass, qs: QuerySet)
    requires |qs.model.fields| > 0
    ensures var v := IterAsWritten(model, qs, Some([]));
      && v.header == []
      && v.body.Ok?
      && |v.body.value| == |qs.records|
      && forall i :: 0 <= i < |qs.records| ==> |v.body.value[i]| == |qs.model.fields| > |v.header|
  {
    var v := IterAsWritten(model, qs, Some([]));
    forall i | 0 <= i < |qs.records|
      ensures |v.body.value[i]| == |qs.model.fields|
    {
      assert v.body.value[i] == Project(qs.records[i], qs.model.fields);
    }
  }

  /** `_iter_django_model` with every row projected onto the header's columns,
      an empty field list included: the header is `fields`, or the model's
      field names in declaration order when `fields` is `None`; the rows are
      the records in queryset order, each as the tuple of its values for
      exactly the header's columns; a column the queryset's model does not have
      raises after the header. */
  function IterDjangoModel(model: ModelClass, qs: QuerySet, fields: Option<seq<string>>): (v: View)
    ensures fields.Some? ==> v.header == fields.value
    ensures fields.None? ==> v.header == model.fields
    ensures v.body.Ok? <==> forall j :: 0 <= j < |v.header| ==> v.header[j] in FieldSet(qs.model)
    ensures v.body.Err? ==> v.body.error in v.header && v.body.error !in FieldSet(qs.model)
    ensures v.body.Ok? ==>
      && |v.body.value| == |qs.records|
      && forall i :: 0 <= i < |qs.records| ==>
        && |v.body.value[i]| == |v.header|
        && forall j :: 0 <= j < |v.header| ==> v.body.value[i][j] == Attr(qs.records[i], v.header[j])
  {
    var cols := ColumnNames(model, fields);
    var body :=
      match FirstUnknown(qs.model, cols)
      case Some(f) => Err(f)
      case None => Ok(seq(|qs.records|, i requires 0 <= i < |qs.records| => Project(qs.records[i], cols)));
    View(cols, body)
  }

  /** For every field list other than the empty one, the corrected view is the
      view as written. */
  lemma IterAgreesUnlessEmptyFields(model: ModelClass, qs: QuerySet, fields: Option<seq<string>>)
    requires ColumnNames(model, fields) != []
    ensures IterDjangoModel(model, qs, fields) == IterAsWritten(model, qs, fields)
  {
  }
}

=== FILE: scenario.dfy ===
/** The worked example of the write adapter: model `Person(id, name, age)` with
    stored instance `(1, "Alice", 30)` and the table
    `[["id", "name", "age"], [1, "Alice", 31], [2, "Bob", 25]]` written with
    `update` and bulk create on: instance 1 is updated (age becomes 31),
    instance 2 is created through one bulk call, and the counts are one updated
    and one created. */
module Scenario {
  import opened Values
  import opened ValueMaps
  import opened Models
  import opened Chunking
  import opened WriteView

  function Person(): ModelClass {
    ModelClass("app.Person", "person", ["id", "name", "age"], "id", map[])
  }

  function PersonRecord(id: int, name: string, age: int): Instance {
    Instance("person", map["id" := VInt(id), "name" := VStr(name), "age" := VInt(age)])
  }

  function Alice(age: int): Instance {
    PersonRecord(1, "Alice", age)
  }

  function Bob(): Instance {
    PersonRecord(2, "Bob", 25)
  }

  function PeopleTable(): Table {
    Table(["id", "name", "age"], [AliceRow(), BobRow()])
  }

  /** With the headers `id`, `name`, `age` a three-cell row becomes the value
      map of those three columns, in header order. */
  lemma RowMap3(h: seq<string>, row: seq<Value>)
    requires h == ["id", "name", "age"] && |row| == 3
    ensures BuildValueMap(h, row) == [("id", row[0]), ("name", row[1]), ("age", row[2])]
  {
    var z := Zip(h, row);
    assert z == [("id", row[0]), ("name", row[1]), ("age", row[2])];
    FromDistinctPairs(z);
  }

  function Cfg(): Config {
    Config(Person(), ["id", "name", "age"], true, true, (_, _) => true)
  }

  /** The run configuration of the example, up to the storage's answers to
      `save()`, which a bulk-create run does not consult for new rows. */
  predicate ExampleConfig(cfg: Config) {
    cfg.model == Person() && cfg.headers == ["id", "name", "age"] && cfg.update && cfg.useBulkCreate
  }

  function AfterUpdate(): RunState {
    RunState(map[VInt(1) := Alice(31)], [Alice(31)], [], [], 1)
  }

  function AfterCreate(): RunState {
    RunState(map[VInt(1) := Alice(31)], [Alice(31)], [], [Bob()], 1)
  }

  lemma LoadAlice(stored: seq<Instance>)
    requires stored == [Alice(30)]
    ensures LoadExisting(stored, "id") == map[VInt(1) := Alice(30)]
  {
    assert PkOf(stored[0], "id") == VInt(1);
    assert stored[..0] == [];
  }

  function AliceRow(): seq<Value> {
    [VInt(1), VStr("Alice"), VInt(31)]
  }

  function BobRow(): seq<Value> {
    [VInt(2), VStr("Bob"), VInt(25)]
  }

  lemma AliceRowMap(cfg: Config, row: seq<Value>)
    requires ExampleConfig(cfg) && row == AliceRow()
    ensures RowMap(cfg, row) == [("id", VInt(1)), ("name", VStr("Alice")), ("age", VInt(31))]
    ensures RowPk(cfg, row) == VInt(1)
  {
    RowMap3(cfg.headers, row);
    GetEntry(RowMap(cfg, row), 0);
  }

  lemma BobRowMap(cfg: Config, row: seq<Value>)
    requires ExampleConfig(cfg) && row == BobRow()
    ensures RowMap(cfg, row) == [("id", VInt(2)), ("name", VStr("Bob")), ("age", VInt(25))]
    ensures RowPk(cfg, row) == VInt(2)
  {
    RowMap3(cfg.headers, row);
    GetEntry(RowMap(cfg, row), 0);
  }

  /** The Alice row differs from the stored instance in `age` only; applying it
      yields Alice aged 31. */
  lemma AliceChanges(vm: ValueMap, before: Instance)
    requires vm == [("id", VInt(1)), ("name", VStr("Alice")), ("age", VInt(31))] && before == Alice(30)
    ensures WillChange(vm, before) == Ok(true)
    ensures ApplyValueMap(vm, before) == Applied(Alice(31))
  {
    assert Agrees(vm[0], before) && Agrees(vm[1], before) && !Agrees(vm[2], before);
    var out := ApplyValueMap(vm, before).inst;
    assert Agrees(vm[0], out) && Agrees(vm[1], out) && Agrees(vm[2], out);
    SameInstance(out, 1, "Alice", 31);
  }

  /** Built from the Bob row, the new instance is Bob. */
  lemma BobBuilt(m: ModelClass, vm: ValueMap)
    requires m == Person() && vm == [("id", VInt(2)), ("name", VStr("Bob")), ("age", VInt(25))]
    ensures Construct(m, vm) == Ok(Bob())
  {
    assert Keys(vm) == {"id", "name", "age"} by {
      assert vm[0].0 in Keys(vm) && vm[1].0 in Keys(vm) && vm[2].0 in Keys(vm);
    }
    assert FieldSet(m) == {"id", "name", "age"};
    var out := Construct(m, vm).value;
    assert Agrees(vm[0], out) && Agrees(vm[1], out) && Agrees(vm[2], out);
    SameInstance(out, 2, "Bob", 25);
  }

  /** An instance of `person` holding exactly these three values is that person. */
  lemma SameInstance(out: Instance, id: int, name: string, age: int)
    requires out.modelName == "person" && out.attrs.Keys == {"id", "name", "age"}
    requires out.attrs["id"] == VInt(id) && out.attrs["name"] == VStr(name) && out.attrs["age"] == VInt(age)
    ensures out == PersonRecord(id, name, age)
  {
  }

  /** The Alice row matches the stored instance 1, differs in `age`, and is
      saved as an update. */
  lemma AliceRowUpdates(cfg: Config, s: RunState, row: seq<Value>)
    requires ExampleConfig(cfg) && cfg.saves(Start(map[VInt(1) := Alice(30)]), Alice(31))
    requires s == Start(map[VInt(1) := Alice(30)]) && row == AliceRow()
    ensures Step(cfg, s, row) == RowsDone(AfterUpdate())
  {
    AliceStep(cfg, s, row);
    UpdateAlice(s);
  }

  lemma AliceStep(cfg: Config, s: RunState, row: seq<Value>)
    requires ExampleConfig(cfg) && cfg.saves(Start(map[VInt(1) := Alice(30)]), Alice(31))
    requires s == Start(map[VInt(1) := Alice(30)]) && row == AliceRow()
    ensures Step(cfg, s, row) == RowsDone(s.(existing := s.existing[VInt(1) := Alice(31)],
                                            savedUpdates := s.savedUpdates + [Alice(31)],
                                            updatedCount := s.updatedCount + 1))
  {
    AliceRouting(cfg, s, row);
    StepSavesUpdate(cfg, s, row, Alice(31));
  }

  lemma UpdateAlice(s: RunState)
    requires s == Start(map[VInt(1) := Alice(30)])
    ensures s.(existing := s.existing[VInt(1) := Alice(31)], savedUpdates := s.savedUpdates + [Alice(31)],
               updatedCount := s.updatedCount + 1) == AfterUpdate()
  {
    assert s.existing[VInt(1) := Alice(31)] == map[VInt(1) := Alice(31)];
  }

  lemma AliceRouting(cfg: Config, s: RunState, row: seq<Value>)
    requires ExampleConfig(cfg) && s == Start(map[VInt(1) := Alice(30)]) && row == AliceRow()
    ensures RoutedToUpdate(cfg, s.existing.Keys, row) && RowPk(cfg, row) == VInt(1)
    ensures WillChange(RowMap(cfg, row), s.existing[RowPk(cfg, row)]) == Ok(true)
    ensures ApplyValueMap(RowMap(cfg, row), s.existing[RowPk(cfg, row)]) == Applied(Alice(31))
  {
    AliceRowMap(cfg, row);
    AliceChanges(RowMap(cfg, row), s.existing[VInt(1)]);
  }

  /** The Bob row has a primary key with no stored instance, so it is built and deferred. */
  lemma BobRowDefers(cfg: Config, s: RunState, row: seq<Value>)
    requires ExampleConfig(cfg) && s == AfterUpdate() && row == BobRow()
    ensures Step(cfg, s, row) == RowsDone(AfterCreate())
  {
    BobStep(cfg, s, row);
    DeferBob(s);
  }

  lemma BobStep(cfg: Config, s: RunState, row: seq<Value>)
    requires ExampleConfig(cfg) && s == AfterUpdate() && row == BobRow()
    ensures Step(cfg, s, row) == RowsDone(s.(deferred := s.deferred + [Bob()]))
  {
    BobRouting(cfg, s, row);
    StepDefersCreate(cfg, s, row, Bob());
  }

  lemma DeferBob(s: RunState)
    requires s == AfterUpdate()
    ensures s.(deferred := s.deferred + [Bob()]) == AfterCreate()
  {
  }

  lemma BobRouting(cfg: Config, s: RunState, row: seq<Value>)
    requires ExampleConfig(cfg) && s == AfterUpdate() && row == BobRow()
    ensures !RoutedToUpdate(cfg, s.existing.Keys, row)
    ensures Construct(cfg.model, RowMap(cfg, row)) == Ok(Bob())
  {
    BobRowMap(cfg, row);
    BobBuilt(cfg.model, RowMap(cfg, row));
  }

  lemma PeopleRows(cfg: Config, s: RunState, rows: seq<seq<Value>>)
    requires ExampleConfig(cfg) && cfg.saves(Start(map[VInt(1) := Alice(30)]), Alice(31))
    requires s == Start(map[VInt(1) := Alice(30)]) && rows == PeopleTable().rows
    ensures ProcessRows(cfg, s, rows) == RowsDone(AfterCreate())
  {
    AliceRowUpdates(cfg, s, rows[0]);
    BobRowDefers(cfg, AfterUpdate(), rows[1]);
    TwoRows(cfg, s, rows, AfterUpdate(), AfterCreate());
  }

  /** Two completed steps make a completed loop over a two-row table. */
  lemma TwoRows(cfg: Config, s: RunState, rows: seq<seq<Value>>, s1: RunState, s2: RunState)
    requires |rows| == 2
    requires Step(cfg, s, rows[0]) == RowsDone(s1) && Step(cfg, s1, rows[1]) == RowsDone(s2)
    ensures ProcessRows(cfg, s, rows) == RowsDone(s2)
  {
    ProcessRowsCons(cfg, s, rows, s1);
    ProcessRowsCons(cfg, s1, rows[1..], s2);
    assert rows[1..][1..] == [];
  }

  lemma OneBulkCall(xs: seq<Instance>, accepts: BulkAnswers<Instance>)
    requires xs == [Bob()] && forall calls, chunk :: accepts(calls, chunk)
    ensures ChunkedBulkCreate(xs, None, None, accepts) == BulkDone([[Bob()]])
  {
    assert Chunks(xs, 50) == [xs];
  }

  /** The example run: one update saved, one instance deferred and inserted by
      a single bulk call, and the counts 1 updated, 1 created. */
  lemma PersonExample(table: Table, stored: seq<Instance>)
    requires table == PeopleTable() && stored == [Alice(30)]
    ensures ToDjango(table, Person(), stored, true, true, None, (_, _) => true, (_, _, _) => true) ==
      Completed(AfterCreate(), [[Bob()]], Report(1, 1))
  {
    LoadAlice(stored);
    assert "id" in FieldSet(Person());
    PeopleRows(Cfg(), Start(map[VInt(1) := Alice(30)]), table.rows);
    OneBulkCall([Bob()], AfterLoop((_, _, _) => true, AfterCreate()));
  }
}

=== FILE: value_maps.dfy ===
/** The per-row value map of the write adapter: `dict(zip(headers, row))`.
    A Python dict remembers the order in which its keys were first inserted, and
    assigning to a key that is already present replaces its value in place, so a
    later duplicate header wins the value but keeps the earlier key's position.
    The model keeps that order, because the order decides which field an
    unsuccessful apply reports and which fields it has already written. */
module ValueMaps {
  import opened Values

  /** One column name with its value. */
  type Entry = (string, Value)

  predicate DistinctKeys(es: seq<Entry>) {
    forall i, j :: 0 <= i < j < |es| ==> es[i].0 != es[j].0
  }

  /** An insertion-ordered dict from column name to value: no key twice. */
  type ValueMap = es: seq<Entry> | DistinctKeys(es)

  /** The keys of a sequence of entries. */
  function Keys(es: seq<Entry>): set<string> {
    set i | 0 <= i < |es| :: es[i].0
  }

  lemma KeysCons(es: seq<Entry>)
    requires |es| > 0
    ensures Keys(es) == {es[0].0} + Keys(es[1..])
  {
    forall k | k in Keys(es)
      ensures k in {es[0].0} + Keys(es[1..])
    {
      var i :| 0 <= i < |es| && es[i].0 == k;
      if i > 0 {
        assert es[1..][i - 1].0 == k;
      }
    }
    forall k | k in Keys(es[1..])
      ensures k in Keys(es)
    {
      var i :| 0 <= i < |es[1..]| && es[1..][i].0 == k;
      assert es[i + 1].0 == k;
    }
  }

  lemma KeysSnoc(es: seq<Entry>, e: Entry)
    ensures Keys(es + [e]) == Keys(es) + {e.0}
  {
    var r := es + [e];
    forall k | k in Keys(r)
      ensures k in Keys(es) + {e.0}
    {
      var i :| 0 <= i < |r| && r[i].0 == k;
      if i < |es| {
        assert es[i].0 == k;
      }
    }
    forall k | k in Keys(es)
      ensures k in Keys(r)
    {
      var i :| 0 <= i < |es| && es[i].0 == k;
      assert r[i].0 == k;
    }
    assert r[|es|].0 == e.0;
  }

  /** `vm.get(k)`: the value stored under `k`, if any. */
  function Get(vm: seq<Entry>, k: string): (r: Option<Value>)
    ensures r.None? <==> k !in Keys(vm)
    ensures r.Some? ==> exists i :: 0 <= i < |vm| && vm[i] == (k, r.value)
  {
    if vm == [] then None
    else
      KeysCons(vm);
      if vm[0].0 == k then
        assert vm[0] == (k, vm[0].1);
        Some(vm[0].1)
      else
        var r := Get(vm[1..], k);
        if r.Some? then
          var i :| 0 <= i < |vm[1..]| && vm[1..][i] == (k, r.value);
          assert vm[i + 1] == (k, r.value);
          r
        else r
  }

  /** In a value map every entry is what `Get` finds under its key. */
  lemma {:induction false} GetEntry(vm: ValueMap, i: int)
    requires 0 <= i < |vm|
    ensures Get(vm, vm[i].0) == Some(vm[i].1)
  {
    if i > 0 {
      var tail: ValueMap := vm[1..];
      GetEntry(tail, i - 1);
    }
  }

  /** The facts `Put` promises, for a candidate result `r` of `vm[k] = v`. */
  ghost predicate PutSpec(vm: ValueMap, k: string, v: Value, r: ValueMap) {
    && Keys(r) == Keys(vm) + {k}
    && Get(r, k) == Some(v)
    && (forall k' :: k' != k ==> Get(r, k') == Get(vm, k'))
    && (k !in Keys(vm) ==> r == vm + [(k, v)])
    && (k in Keys(vm) ==> |r| == |vm| && forall i :: 0 <= i < |vm| ==> r[i].0 == vm[i].0)
  }

  /** `vm[k] = v`: replaces the value of an existing key where it stands, or
      appends a new key at the end. */
  function Put(vm: ValueMap, k: string, v: Value): (r: ValueMap)
    ensures Keys(r) == Keys(vm) + {k}
    ensures Get(r, k) == Some(v)
    ensures forall k' :: k' != k ==> Get(r, k') == Get(vm, k')
    ensures k !in Keys(vm) ==> r == vm + [(k, v)]
    ensures k in Keys(vm) ==> |r| == |vm| && forall i :: 0 <= i < |vm| ==> r[i].0 == vm[i].0
    decreases |vm|
  {
    if vm == [] then
      KeysSnoc([], (k, v));
      assert [] + [(k, v)] == [(k, v)];
      [(k, v)]
    else
      var tail: ValueMap := vm[1..];
      if vm[0].0 == k then
        var r := [(k, v)] + tail;
        PutAtHead(vm, k, v, r);
        r
      else
        var rest := Put(tail, k, v);
        var r := [vm[0]] + rest;
        PutBehindHead(vm, k, v, rest, r);
        r
  }

  lemma PutAtHead(vm: ValueMap, k: string, v: Value, r: ValueMap)
    requires |vm| > 0 && vm[0].0 == k && r == [(k, v)] + vm[1..]
    ensures PutSpec(vm, k, v, r)
  {
    KeysCons(vm);
    KeysCons(r);
    assert r[1..] == vm[1..];
    assert vm[0].0 in Keys(vm);
  }

  lemma PutBehindHead(vm: ValueMap, k: string, v: Value, rest: ValueMap, r: seq<Entry>)
    requires |vm| > 0 && vm[0].0 != k && r == [vm[0]] + rest
    requires PutSpec(vm[1..], k, v, rest)
    ensures DistinctKeys(r)
    ensures DistinctKeys(r) ==> PutSpec(vm, k, v, r)
  {
    BehindHeadKeys(vm, k, v, rest, r);
    BehindHeadGet(vm, k, v, rest, r);
    BehindHeadShape(vm, k, v, rest, r);
  }

  lemma BehindHeadKeys(vm: ValueMap, k: string, v: Value, rest: ValueMap, r: seq<Entry>)
    requires |vm| > 0 && vm[0].0 != k && r == [vm[0]] + rest
    requires Keys(rest) == Keys(vm[1..]) + {k}
    ensures DistinctKeys(r)
    ensures Keys(r) == Keys(vm) + {k}
  {
    KeysCons(vm);
    HeadNotInTail(vm);
    ConsDistinct(vm[0], rest);
    assert r[1..] == rest;
    KeysCons(r);
  }

  lemma BehindHeadGet(vm: ValueMap, k: string, v: Value, rest: ValueMap, r: seq<Entry>)
    requires |vm| > 0 && vm[0].0 != k && r == [vm[0]] + rest
    requires Get(rest, k) == Some(v)
    requires forall k' :: k' != k ==> Get(rest, k') == Get(vm[1..], k')
    ensures Get(r, k) == Some(v)
    ensures forall k' :: k' != k ==> Get(r, k') == Get(vm, k')
  {
    assert r[1..] == rest;
    forall k' | k' != k
      ensures Get(r, k') == Get(vm, k')
    {
      assert Get(r, k') == if vm[0].0 == k' then Some(vm[0].1) else Get(rest, k');
    }
  }

  lemma BehindHeadShape(vm: ValueMap, k: string, v: Value, rest: ValueMap, r: seq<Entry>)
    requires |vm| > 0 && vm[0].0 != k && r == [vm[0]] + rest
    requires k !in Keys(vm[1..]) ==> rest == vm[1..] + [(k, v)]
    requires k in Keys(vm[1..]) ==> |rest| == |vm[1..]| && forall i :: 0 <= i < |vm[1..]| ==> rest[i].0 == vm[1..][i].0
    ensures k !in Keys(vm) ==> r == vm + [(k, v)]
    ensures k in Keys(vm) ==> |r| == |vm| && forall i :: 0 <= i < |vm| ==> r[i].0 == vm[i].0
  {
    KeysCons(vm);
    if k !in Keys(vm) {
      assert r == vm + [(k, v)];
    } else {
      forall i | 0 <= i < |vm|
        ensures r[i].0 == vm[i].0
      {
        if i > 0 {
          assert r[i] == rest[i - 1] && vm[i] == vm[1..][i - 1];
        }
      }
    }
  }

  lemma HeadNotInTail(vm: ValueMap)
    requires |vm| > 0
    ensures vm[0].0 !in Keys(vm[1..])
  {
    forall i | 0 <= i < |vm[1..]|
      ensures vm[1..][i].0 != vm[0].0
    {
      assert vm[1..][i] == vm[i + 1];
    }
  }

  lemma ConsDistinct(e: Entry, rest: ValueMap)
    requires e.0 !in Keys(rest)
    ensures DistinctKeys([e] + rest)
  {
    var r := [e] + rest;
    forall i, j | 0 <= i < j < |r|
      ensures r[i].0 != r[j].0
    {
      if i == 0 {
        assert rest[j - 1].0 in Keys(rest);
      }
    }
  }

  /** The key of entry `i` is not assigned again later in `ps`. */
  predicate LastAssignment(ps: seq<Entry>, i: int)
    requires 0 <= i < |ps|
  {
    forall j :: i < j < |ps| ==> ps[j].0 != ps[i].0
  }

  lemma LastAssignmentsOfPrefix(ps: seq<Entry>, prev: ValueMap, r: ValueMap)
    requires |ps| > 0
    requires forall i :: 0 <= i < |ps| - 1 && LastAssignment(ps[..|ps| - 1], i) ==>
      Get(prev, ps[i].0) == Some(ps[i].1)
    requires Get(r, ps[|ps| - 1].0) == Some(ps[|ps| - 1].1)
    requires forall k' :: k' != ps[|ps| - 1].0 ==> Get(r, k') == Get(prev, k')
    ensures forall i :: 0 <= i < |ps| && LastAssignment(ps, i) ==> Get(r, ps[i].0) == Some(ps[i].1)
  {
    var n := |ps| - 1;
    forall i | 0 <= i < |ps| && LastAssignment(ps, i)
      ensures Get(r, ps[i].0) == Some(ps[i].1)
    {
      if i < n {
        assert ps[n].0 != ps[i].0;
        assert LastAssignment(ps[..n], i);
      }
    }
  }

  /** The position of the first pair of `ps` that names `k`, or `|ps|` when
      none does. */
  function FirstIndex(ps: seq<Entry>, k: string): (i: nat)
    ensures i <= |ps|
    ensures i < |ps| <==> k in Keys(ps)
    ensures i < |ps| ==> ps[i].0 == k
    ensures forall j :: 0 <= j < i ==> ps[j].0 != k
  {
    if ps == [] then 0
    else
      KeysCons(ps);
      if ps[0].0 == k then 0
      else
        var i := FirstIndex(ps[1..], k);
        assert forall j :: 1 <= j < i + 1 ==> ps[j] == ps[1..][j - 1];
        i + 1
  }

  /** The keys of `r` are listed in the order in which they first occur in `ps`. */
  ghost predicate FirstOccurrenceOrder(r: seq<Entry>, ps: seq<Entry>) {
    forall i, j :: 0 <= i < j < |r| ==> FirstIndex(ps, r[i].0) < FirstIndex(ps, r[j].0)
  }

  /** Builds a dict from a sequence of pairs, assigning them in order: every key
      of the pairs is present, holds the value of its last assignment, and
      keeps the position of its first one. */
  function FromPairs(ps: seq<Entry>): (r: ValueMap)
    ensures |r| <= |ps|
    ensures Keys(r) == Keys(ps)
    ensures forall i :: 0 <= i < |ps| && LastAssignment(ps, i) ==> Get(r, ps[i].0) == Some(ps[i].1)
    ensures FirstOccurrenceOrder(r, ps)
  {
    if ps == [] then []
    else
      var n := |ps| - 1;
      var prev := FromPairs(ps[..n]);
      var r := Put(prev, ps[n].0, ps[n].1);
      FromPairsStep(ps, prev, r);
      FromPairsOrderStep(ps, prev, r);
      r
  }

  /** Assigning the last pair keeps the first-occurrence order: an existing key
      stays where it is, and a new key, whose first occurrence is the last
      pair, goes to the end. */
  lemma FromPairsOrderStep(ps: seq<Entry>, prev: ValueMap, r: ValueMap)
    requires |ps| > 0
    requires Keys(prev) == Keys(ps[..|ps| - 1])
    requires FirstOccurrenceOrder(prev, ps[..|ps| - 1])
    requires r == Put(prev, ps[|ps| - 1].0, ps[|ps| - 1].1)
    ensures FirstOccurrenceOrder(r, ps)
  {
    var n := |ps| - 1;
    FirstIndexOfPrefix(ps);
    forall i | 0 <= i < |prev|
      ensures FirstIndex(ps, prev[i].0) == FirstIndex(ps[..n], prev[i].0) < n
    {
      assert prev[i].0 in Keys(prev);
    }
  }

  /** A key that occurs in the pairs before the last one first occurs where it
      first occurs among them; otherwise the last pair's key first occurs
      there. */
  lemma FirstIndexOfPrefix(ps: seq<Entry>)
    requires |ps| > 0
    ensures forall k :: k in Keys(ps[..|ps| - 1]) ==> FirstIndex(ps, k) == FirstIndex(ps[..|ps| - 1], k)
    ensures ps[|ps| - 1].0 !in Keys(ps[..|ps| - 1]) ==> FirstIndex(ps, ps[|ps| - 1].0) == |ps| - 1
  {
    var n := |ps| - 1;
    forall k | k in Keys(ps[..n])
      ensures FirstIndex(ps, k) == FirstIndex(ps[..n], k)
    {
      FirstIndexOfOldKey(ps, n, k);
    }
    if ps[n].0 !in Keys(ps[..n]) {
      FirstIndexOfNewKey(ps, n);
    }
  }

  lemma FirstIndexOfOldKey(ps: seq<Entry>, n: nat, k: string)
    requires n < |ps| && k in Keys(ps[..n])
    ensures FirstIndex(ps, k) == FirstIndex(ps[..n], k)
  {
    var front := ps[..n];
    var m := FirstIndex(front, k);
    assert front[m] == ps[m];
    forall j | 0 <= j < m
      ensures ps[j].0 != k
    {
      assert front[j] == ps[j];
    }
    FirstIndexUnique(ps, k, m);
  }

  lemma FirstIndexOfNewKey(ps: seq<Entry>, n: nat)
    requires n < |ps| && ps[n].0 !in Keys(ps[..n])
    ensures FirstIndex(ps, ps[n].0) == n
  {
    forall j | 0 <= j < n
      ensures ps[j].0 != ps[n].0
    {
      assert ps[..n][j] == ps[j];
    }
    FirstIndexUnique(ps, ps[n].0, n);
  }

  /** `FirstIndex` is the one position naming `k` with no earlier one. */
  lemma FirstIndexUnique(ps: seq<Entry>, k: string, i: nat)
    requires i < |ps| && ps[i].0 == k
    requires forall j :: 0 <= j < i ==> ps[j].0 != k
    ensures FirstIndex(ps, k) == i
  {
    assert k in Keys(ps);
  }

  /** Assigning the last pair to the dict built from the others keeps the facts
      `FromPairs` promises. */
  lemma FromPairsStep(ps: seq<Entry>, prev: ValueMap, r: ValueMap)
    requires |ps| > 0
    requires |prev| <= |ps| - 1 && Keys(prev) == Keys(ps[..|ps| - 1])
    requires forall i :: 0 <= i < |ps| - 1 && LastAssignment(ps[..|ps| - 1], i) ==>
      Get(prev, ps[i].0) == Some(ps[i].1)
    requires r == Put(prev, ps[|ps| - 1].0, ps[|ps| - 1].1)
    ensures |r| <= |ps|
    ensures Keys(r) == Keys(ps)
    ensures forall i :: 0 <= i < |ps| && LastAssignment(ps, i) ==> Get(r, ps[i].0) == Some(ps[i].1)
  {
    SnocKeys(ps);
    LastAssignmentsOfPrefix(ps, prev, r);
  }

  lemma SnocKeys(ps: seq<Entry>)
    requires |ps| > 0
    ensures Keys(ps) == Keys(ps[..|ps| - 1]) + {ps[|ps| - 1].0}
  {
    var n := |ps| - 1;
    assert ps == ps[..n] + [ps[n]];
    KeysSnoc(ps[..n], ps[n]);
  }

  /** Pairs with distinct keys build the dict that lists exactly them, in order. */
  lemma {:induction false} FromDistinctPairs(ps: seq<Entry>)
    requires DistinctKeys(ps)
    ensures FromPairs(ps) == ps
  {
    if ps != [] {
      var n := |ps| - 1;
      var front := ps[..n];
      assert DistinctKeys(front);
      FromDistinctPairs(front);
      FromPairsSnoc(ps);
      NewKeyOfDistinct(ps);
      PutNewLast(front, ps);
    }
  }

  /** `FromPairs` assigns the last pair to the dict built from the others. */
  lemma FromPairsSnoc(ps: seq<Entry>)
    requires |ps| > 0
    ensures FromPairs(ps) == Put(FromPairs(ps[..|ps| - 1]), ps[|ps| - 1].0, ps[|ps| - 1].1)
  {
  }

  /** Appending a pair with a new key to a dict that lists the other pairs
      lists them all. */
  lemma PutNewLast(front: ValueMap, ps: seq<Entry>)
    requires |ps| > 0 && front == ps[..|ps| - 1] && ps[|ps| - 1].0 !in Keys(front)
    ensures Put(front, ps[|ps| - 1].0, ps[|ps| - 1].1) == ps
  {
    assert front + [ps[|ps| - 1]] == ps;
  }

  lemma NewKeyOfDistinct(ps: seq<Entry>)
    requires DistinctKeys(ps) && |ps| > 0
    ensures ps[|ps| - 1].0 !in Keys(ps[..|ps| - 1])
  {
    var n := |ps| - 1;
    forall i | 0 <= i < n
      ensures ps[..n][i].0 != ps[n].0
    {
      assert ps[..n][i] == ps[i];
    }
  }

  /** `zip(headers, row)`: pairs up to the shorter of the two. */
  function Zip(headers: seq<string>, row: seq<Value>): (ps: seq<Entry>)
    ensures |ps| == Min(|headers|, |row|)
    ensures forall i :: 0 <= i < |ps| ==> ps[i] == (headers[i], row[i])
  {
    seq(Min(|headers|, |row|), i requires 0 <= i < Min(|headers|, |row|) => (headers[i], row[i]))
  }

  /** `dict(zip(headers, row))`. */
  function BuildValueMap(headers: seq<string>, row: seq<Value>): ValueMap {
    FromPairs(Zip(headers, row))
  }

  /** The value map of a row holds exactly the headers that have a cell (the row
      is truncated to the shorter of header and row), and a header that occurs
      twice takes the value of its later column. */
  lemma BuildValueMapSpec(headers: seq<string>, row: seq<Value>)
    ensures |BuildValueMap(headers, row)| <= Min(|headers|, |row|)
    ensures forall k :: k in Keys(BuildValueMap(headers, row)) <==>
      exists i :: 0 <= i < Min(|headers|, |row|) && headers[i] == k
    ensures forall i :: (0 <= i < Min(|headers|, |row|) &&
      forall j :: i < j < Min(|headers|, |row|) ==> headers[j] != headers[i]) ==>
      Get(BuildValueMap(headers, row), headers[i]) == Some(row[i])
    ensures FirstOccurrenceOrder(BuildValueMap(headers, row), Zip(headers, row))
  {
    var ps := Zip(headers, row);
    var n := Min(|headers|, |row|);
    forall k | k in Keys(ps)
      ensures exists i :: 0 <= i < n && headers[i] == k
    {
      var i :| 0 <= i < |ps| && ps[i].0 == k;
      assert headers[i] == k;
    }
    forall i | 0 <= i < n && (forall j :: i < j < n ==> headers[j] != headers[i])
      ensures LastAssignment(ps, i)
    {
    }
    forall k | exists i :: 0 <= i < n && headers[i] == k
      ensures k in Keys(ps)
    {
      var i :| 0 <= i < n && headers[i] == k;
      assert ps[i].0 == k;
    }
  }

  /** A repeated header keeps the position of its first column and takes the
      value of its last one: `dict(zip(["a", "b", "a"], [1, 2, 3]))` is
      `{"a": 3, "b": 2}`, in that order. */
  lemma DuplicateHeaderKeepsFirstPosition(headers: seq<string>, row: seq<Value>)
    requires headers == ["a", "b", "a"] && row == [VInt(1), VInt(2), VInt(3)]
    ensures BuildValueMap(headers, row) == [("a", VInt(3)), ("b", VInt(2))]
  {
    var ps := Zip(headers, row);
    assert ps == [("a", VInt(1)), ("b", VInt(2)), ("a", VInt(3))];
    var two: ValueMap := [("a", VInt(1)), ("b", VInt(2))];
    assert ps[..2] == two;
    FromDistinctThenPut(ps);
    ReassignFirst(two);
  }

  /** When the pairs before the last have distinct keys, the dict is those
      pairs with the last one assigned. */
  lemma FromDistinctThenPut(ps: seq<Entry>)
    requires |ps| > 0 && DistinctKeys(ps[..|ps| - 1])
    ensures FromPairs(ps) == Put(ps[..|ps| - 1], ps[|ps| - 1].0, ps[|ps| - 1].1)
  {
    FromDistinctPairs(ps[..|ps| - 1]);
    FromPairsSnoc(ps);
  }

  /** Reassigning the first key replaces its value in place. */
  lemma ReassignFirst(two: ValueMap)
    requires two == [("a", VInt(1)), ("b", VInt(2))]
    ensures Put(two, "a", VInt(3)) == [("a", VInt(3)), ("b", VInt(2))]
  {
    var r := Put(two, "a", VInt(3));
    assert two[0].0 in Keys(two);
    GetEntry(r, 0);
    GetEntry(r, 1);
    GetEntry(two, 1);
  }

  /** `vm.get(name, None)`: the value under `name`, or `None` when the column is absent. */
  function GetOrNone(vm: ValueMap, name: string): (v: Value)
    ensures name !in Keys(vm) ==> v == VNone
    ensures name in Keys(vm) ==> (name, v) in vm
  {
    match Get(vm, name)
    case Some(x) => x
    case None => VNone
  }
}

=== FILE: values.dfy ===
/** Scalar values, the failure-carrying wrappers and the table shape shared by the
    read adapter and the write adapter. */
module Values {

  /** A scalar field value as it appears in a table cell or a model attribute.
      `VNone` is Python's `None`. */
  datatype Value = VNone | VBool(b: bool) | VInt(i: int) | VStr(s: string)

  /** An optional value, used for the `None`-or-something parameters of the adapters. */
  datatype Option<+T> = None | Some(value: T) {

    /** The carried value, or `default` when there is none. */
    function GetOr(default: T): T {
      match this
      case Some(v) => v
      case None => default
    }
  }

  /** Either a value or the error that stopped the computation. */
  datatype Result<+T, +E> = Ok(value: T) | Err(error: E)

  /** A table: a header of column names followed by the data rows. */
  datatype Table = Table(header: seq<string>, rows: seq<seq<Value>>)

  function Min(a: int, b: int): int {
    if a <= b then a else b
  }
}

=== FILE: write_view.dfy ===
/** The write adapter, `todjango`: each data row becomes a value map; a row
    whose primary-key value names an instance loaded before the loop updates
    that instance when some field differs, every other row becomes a new
    instance that is saved at once or deferred to the chunked bulk insert. The
    row loop is a fold whose state is the existing-instance map (mutated in
    place), the instances saved as updates, the instances saved as immediate
    creates, the deferred list and the update count. */
module WriteView {
  import opened Values
  import opened ValueMaps
  import opened Models
  import opened Chunking

  /** The state the row loop carries. */
  datatype RunState = RunState(
    existing: map<Value, Instance>,
    savedUpdates: seq<Instance>,
    created: seq<Instance>,
    deferred: seq<Instance>,
    updatedCount: nat)

  /** The state before the first row, given the loaded instances. */
  function Start(existing: map<Value, Instance>): RunState {
    RunState(existing, [], [], [], 0)
  }

  /** What can stop a run. Storage failures carry the data the code attaches to
      the exception: the row's value map as `petl_data`, the chunk as
      `petl_chunk_data`. */
  datatype WriteError =
    | PkNotAField(pk: string)
    | NoAttribute(field: string)
    | UnableToApplyValueMap(message: string)
    | UnexpectedKeywords(fields: seq<string>)
    | SaveFailed(petlData: ValueMap)
    | ChunkStepZero
    | BulkCreateFailed(petlChunkData: seq<Instance>)

  /** The loop either finishes, or raises; on a raise the state is the one
      before the failing row, whose saves have all been committed. */
  datatype RowsOutcome =
    | RowsDone(state: RunState)
    | RowsRaised(error: WriteError, state: RunState)

  /** The storage's answer to one `save()`: given the run's state before the
      row (which records every update and create saved so far) and the
      instance, whether it stores the instance (rather than raising). */
  type SaveAnswers = (RunState, Instance) -> bool

  /** What stays fixed across the rows of one run: the model class, the header
      row, the `update` and `use_bulk_create` flags, and the storage. */
  datatype Config = Config(
    model: ModelClass,
    headers: seq<string>,
    update: bool,
    useBulkCreate: bool,
    saves: SaveAnswers)

  /** `value_map = dict(zip(table_headers, row))`. */
  function RowMap(cfg: Config, row: seq<Value>): ValueMap {
    BuildValueMap(cfg.headers, row)
  }

  /** `pk = value_map.get(model_pk_field_name, None)`. */
  function RowPk(cfg: Config, row: seq<Value>): Value {
    GetOrNone(RowMap(cfg, row), cfg.model.pk)
  }

  /** `update and pk in existing_model_map`, over the keys loaded before the loop. */
  predicate RoutedToUpdate(cfg: Config, keys: set<Value>, row: seq<Value>) {
    cfg.update && RowPk(cfg, row) in keys
  }

  /** One iteration of the row loop of `todjango`. */
  function Step(cfg: Config, s: RunState, row: seq<Value>): (r: RowsOutcome)
    ensures r.state.existing.Keys == s.existing.Keys
    ensures r.RowsRaised? ==> r.state == s
    ensures forall p :: p in s.existing && p != RowPk(cfg, row) ==> r.state.existing[p] == s.existing[p]
    ensures r.RowsDone? && RoutedToUpdate(cfg, s.existing.Keys, row) ==>
      && r.state.created == s.created
      && r.state.deferred == s.deferred
      && (r.state == s || (r.state.savedUpdates == s.savedUpdates + [r.state.existing[RowPk(cfg, row)]] &&
                           r.state.updatedCount == s.updatedCount + 1))
    ensures r.RowsDone? && !RoutedToUpdate(cfg, s.existing.Keys, row) ==>
      && Construct(cfg.model, RowMap(cfg, row)).Ok?
      && r.state.existing == s.existing
      && r.state.savedUpdates == s.savedUpdates
      && r.state.updatedCount == s.updatedCount
      && var obj := Construct(cfg.model, RowMap(cfg, row)).value;
         if cfg.useBulkCreate then r.state.created == s.created && r.state.deferred == s.deferred + [obj]
         else r.state.deferred == s.deferred && r.state.created == s.created + [obj]
    ensures RoutedToUpdate(cfg, s.existing.Keys, row) ==>
      r == UpdateRow(cfg, s, RowMap(cfg, row), RowPk(cfg, row))
    ensures !RoutedToUpdate(cfg, s.existing.Keys, row) ==> r == CreateRow(cfg, s, RowMap(cfg, row))
  {
    var vm := RowMap(cfg, row);
    var pk := RowPk(cfg, row);
    if cfg.update && pk in s.existing then UpdateRow(cfg, s, vm, pk)
    else CreateRow(cfg, s, vm)
  }

  /** The update branch of the loop body: `_will_model_change`, then
      `_apply_value_map` and `save()` on the instance stored under `pk`. */
  function UpdateRow(cfg: Config, s: RunState, vm: ValueMap, pk: Value): (r: RowsOutcome)
    requires pk in s.existing
    ensures r.state.existing.Keys == s.existing.Keys
    ensures r.RowsRaised? ==> r.state == s
    ensures forall p :: p in s.existing && p != pk ==> r.state.existing[p] == s.existing[p]
    ensures r.RowsDone? ==>
      && r.state.created == s.created
      && r.state.deferred == s.deferred
      && (r.state == s || (r.state.savedUpdates == s.savedUpdates + [r.state.existing[pk]] &&
                           r.state.updatedCount == s.updatedCount + 1))
    ensures var change := WillChange(vm, s.existing[pk]);
      var applied := ApplyValueMap(vm, s.existing[pk]);
      && (change.Err? ==> r == RowsRaised(NoAttribute(change.error), s))
      && (change == Ok(false) ==> r == RowsDone(s))
      && (change == Ok(true) && applied.Unable? ==>
            r == RowsRaised(UnableToApplyValueMap(UnableMessage(applied.field, applied.modelName)), s))
      && (change == Ok(true) && applied.Applied? && !cfg.saves(s, applied.inst) ==>
            r == RowsRaised(SaveFailed(vm), s))
      && (change == Ok(true) && applied.Applied? && cfg.saves(s, applied.inst) ==>
            r == RowsDone(s.(existing := s.existing[pk := applied.inst],
                             savedUpdates := s.savedUpdates + [applied.inst],
                             updatedCount := s.updatedCount + 1)))
  {
    var obj := s.existing[pk];
    match WillChange(vm, obj)
    case Err(f) => RowsRaised(NoAttribute(f), s)
    case Ok(changes) =>
      if !changes then RowsDone(s)
      else
        match ApplyValueMap(vm, obj)
        case Unable(f, name, _) => RowsRaised(UnableToApplyValueMap(UnableMessage(f, name)), s)
        case Applied(obj') =>
          if cfg.saves(s, obj') then
            RowsDone(s.(existing := s.existing[pk := obj'],
                        savedUpdates := s.savedUpdates + [obj'],
                        updatedCount := s.updatedCount + 1))
          else RowsRaised(SaveFailed(vm), s)
  }

  /** The create branch of the loop body: `model(**value_map)`, then either
      deferred to the bulk insert or saved at once. */
  function CreateRow(cfg: Config, s: RunState, vm: ValueMap): (r: RowsOutcome)
    ensures r.RowsRaised? ==> r.state == s
    ensures r.RowsDone? ==>
      && Construct(cfg.model, vm).Ok?
      && r.state.existing == s.existing
      && r.state.savedUpdates == s.savedUpdates
      && r.state.updatedCount == s.updatedCount
      && var obj := Construct(cfg.model, vm).value;
         if cfg.useBulkCreate then r.state.created == s.created && r.state.deferred == s.deferred + [obj]
         else r.state.deferred == s.deferred && r.state.created == s.created + [obj]
    ensures var built := Construct(cfg.model, vm);
      && (built.Err? ==> r == RowsRaised(UnexpectedKeywords(built.error), s))
      && (built.Ok? && cfg.useBulkCreate ==> r == RowsDone(s.(deferred := s.deferred + [built.value])))
      && (built.Ok? && !cfg.useBulkCreate && cfg.saves(s, built.value) ==>
            r == RowsDone(s.(created := s.created + [built.value])))
      && (built.Ok? && !cfg.useBulkCreate && !cfg.saves(s, built.value) ==>
            r == RowsRaised(SaveFailed(vm), s))
  {
    match Construct(cfg.model, vm)
    case Err(bad) => RowsRaised(UnexpectedKeywords(bad), s)
    case Ok(obj) =>
      if cfg.useBulkCreate then RowsDone(s.(deferred := s.deferred + [obj]))
      else if cfg.saves(s, obj) then RowsDone(s.(created := s.created + [obj]))
      else RowsRaised(SaveFailed(vm), s)
  }

  /** A row routed to an update whose value map differs from the instance, and
      whose updated instance the storage saves, is counted and recorded. */
  lemma StepSavesUpdate(cfg: Config, s: RunState, row: seq<Value>, updated: Instance)
    requires RoutedToUpdate(cfg, s.existing.Keys, row)
    requires WillChange(RowMap(cfg, row), s.existing[RowPk(cfg, row)]) == Ok(true)
    requires ApplyValueMap(RowMap(cfg, row), s.existing[RowPk(cfg, row)]) == Applied(updated)
    requires cfg.saves(s, updated)
    ensures Step(cfg, s, row) == RowsDone(s.(existing := s.existing[RowPk(cfg, row) := updated],
                                            savedUpdates := s.savedUpdates + [updated],
                                            updatedCount := s.updatedCount + 1))
  {
    UpdateRowSaves(cfg, s, RowMap(cfg, row), RowPk(cfg, row), updated);
  }

  lemma UpdateRowSaves(cfg: Config, s: RunState, vm: ValueMap, pk: Value, updated: Instance)
    requires pk in s.existing
    requires WillChange(vm, s.existing[pk]) == Ok(true) && ApplyValueMap(vm, s.existing[pk]) == Applied(updated)
    requires cfg.saves(s, updated)
    ensures UpdateRow(cfg, s, vm, pk) == RowsDone(s.(existing := s.existing[pk := updated],
                                                    savedUpdates := s.savedUpdates + [updated],
                                                    updatedCount := s.updatedCount + 1))
  {
  }

  /** With bulk create on, a row not routed to an update is built and deferred. */
  lemma StepDefersCreate(cfg: Config, s: RunState, row: seq<Value>, obj: Instance)
    requires !RoutedToUpdate(cfg, s.existing.Keys, row) && cfg.useBulkCreate
    requires Construct(cfg.model, RowMap(cfg, row)) == Ok(obj)
    ensures Step(cfg, s, row) == RowsDone(s.(deferred := s.deferred + [obj]))
  {
  }

  /** `s'` extends `s`: the same instance keys, each list grown at its end, and
      the update count grown by the number of saved updates. */
  predicate Extends(s': RunState, s: RunState) {
    && s'.existing.Keys == s.existing.Keys
    && s.savedUpdates <= s'.savedUpdates
    && s.created <= s'.created
    && s.deferred <= s'.deferred
    && s'.updatedCount - s.updatedCount == |s'.savedUpdates| - |s.savedUpdates|
  }

  /** The row loop of `todjango`, rows in table order. The existing-instance map
      is never extended, so the update-or-create decision of every row is made
      against the keys loaded before the loop; with bulk create on nothing is
      saved as a create inside the loop, with it off nothing is deferred; with
      `update` off no instance is touched. */
  function ProcessRows(cfg: Config, s: RunState, rows: seq<seq<Value>>): (r: RowsOutcome)
    ensures Extends(r.state, s)
    ensures cfg.useBulkCreate ==> r.state.created == s.created
    ensures !cfg.useBulkCreate ==> r.state.deferred == s.deferred
    ensures !cfg.update ==> r.state.existing == s.existing && r.state.savedUpdates == s.savedUpdates
    decreases |rows|
  {
    if rows == [] then RowsDone(s)
    else
      match Step(cfg, s, rows[0])
      case RowsRaised(e, s') => RowsRaised(e, s')
      case RowsDone(s') => ProcessRows(cfg, s', rows[1..])
  }

  /** A completed first step hands its state on to the rest of the rows. */
  lemma ProcessRowsCons(cfg: Config, s: RunState, rows: seq<seq<Value>>, s': RunState)
    requires rows != [] && Step(cfg, s, rows[0]) == RowsDone(s')
    ensures ProcessRows(cfg, s, rows) == ProcessRows(cfg, s', rows[1..])
  {
  }

  /** The loop over the first `i` rows. */
  function Prefix(cfg: Config, s: RunState, rows: seq<seq<Value>>, i: nat): RowsOutcome
    requires i <= |rows|
  {
    ProcessRows(cfg, s, rows[..i])
  }

  /** A completed loop completed every row's step, each from the state the
      rows before it left. */
  lemma {:induction false} CompletedEveryStep(cfg: Config, s: RunState, rows: seq<seq<Value>>)
    requires ProcessRows(cfg, s, rows).RowsDone?
    ensures forall i :: 0 <= i < |rows| ==>
      Prefix(cfg, s, rows, i).RowsDone? && Step(cfg, Prefix(cfg, s, rows, i).state, rows[i]).RowsDone?
    decreases |rows|
  {
    if rows != [] {
      var s1 := Step(cfg, s, rows[0]).state;
      PrefixEmpty(cfg, s, rows);
      CompletedEveryStep(cfg, s1, rows[1..]);
      forall i | 1 <= i < |rows|
        ensures Prefix(cfg, s, rows, i).RowsDone? && Step(cfg, Prefix(cfg, s, rows, i).state, rows[i]).RowsDone?
      {
        PrefixShift(cfg, s, rows, i, s1);
        assert rows[1..][i - 1] == rows[i];
      }
    }
  }

  /** A loop that raises stops at a row whose step raises: the rows before it
      completed, the state is the one they left, and the error is that step's. */
  lemma {:induction false} RaisedAtFailingStep(cfg: Config, s: RunState, rows: seq<seq<Value>>)
    requires ProcessRows(cfg, s, rows).RowsRaised?
    ensures var r := ProcessRows(cfg, s, rows);
      exists i :: (0 <= i < |rows| &&
        Prefix(cfg, s, rows, i) == RowsDone(r.state) && Step(cfg, r.state, rows[i]) == RowsRaised(r.error, r.state))
    decreases |rows|
  {
    var r := ProcessRows(cfg, s, rows);
    PrefixEmpty(cfg, s, rows);
    var st := Step(cfg, s, rows[0]);
    if st.RowsDone? {
      var s1 := st.state;
      RaisedAtFailingStep(cfg, s1, rows[1..]);
      var j :| 0 <= j < |rows[1..]| &&
        Prefix(cfg, s1, rows[1..], j) == RowsDone(r.state) && Step(cfg, r.state, rows[1..][j]) == RowsRaised(r.error, r.state);
      PrefixShift(cfg, s, rows, j + 1, s1);
      assert rows[1..][j] == rows[j + 1];
    }
  }

  /** The loop completes exactly when every step, taken from the state the rows
      before it left, completes. */
  lemma CompletesIffEveryStepCompletes(cfg: Config, s: RunState, rows: seq<seq<Value>>)
    ensures ProcessRows(cfg, s, rows).RowsDone? <==> forall i :: 0 <= i < |rows| ==>
      Prefix(cfg, s, rows, i).RowsDone? && Step(cfg, Prefix(cfg, s, rows, i).state, rows[i]).RowsDone?
  {
    if ProcessRows(cfg, s, rows).RowsDone? {
      CompletedEveryStep(cfg, s, rows);
    } else {
      RaisedAtFailingStep(cfg, s, rows);
    }
  }

  lemma PrefixEmpty(cfg: Config, s: RunState, rows: seq<seq<Value>>)
    ensures Prefix(cfg, s, rows, 0) == RowsDone(s)
  {
    assert rows[..0] == [];
  }

  /** After a completed first step, the loop over the first `i` rows is the loop
      over the first `i - 1` of the rest. */
  lemma PrefixShift(cfg: Config, s: RunState, rows: seq<seq<Value>>, i: nat, s1: RunState)
    requires 1 <= i <= |rows| && Step(cfg, s, rows[0]) == RowsDone(s1)
    ensures Prefix(cfg, s, rows, i) == Prefix(cfg, s1, rows[1..], i - 1)
  {
    var front := rows[..i];
    FrontOfPrefix(rows, i);
    ProcessRowsCons(cfg, s, front, s1);
  }

  lemma FrontOfPrefix<T>(rows: seq<T>, i: nat)
    requires 1 <= i <= |rows|
    ensures rows[..i][0] == rows[0] && rows[..i][1..] == rows[1..][..i - 1]
  {
  }

  /** The new instance a single row is built into, if it is routed to creation. */
  function CreateOf(cfg: Config, keys: set<Value>, row: seq<Value>): seq<Instance> {
    if RoutedToUpdate(cfg, keys, row) then []
    else match Construct(cfg.model, RowMap(cfg, row))
      case Ok(obj) => [obj]
      case Err(_) => []
  }

  /** The new instances built from the rows routed to creation, in row order. */
  function CreatesFor(cfg: Config, keys: set<Value>, rows: seq<seq<Value>>): seq<Instance> {
    if rows == [] then []
    else CreateOf(cfg, keys, rows[0]) + CreatesFor(cfg, keys, rows[1..])
  }

  /** One completed step adds the row's new instance, if any, and counts at most
      one update, only for a row routed to an update. */
  lemma StepPartition(cfg: Config, s: RunState, row: seq<Value>)
    requires Step(cfg, s, row).RowsDone?
    ensures var r := Step(cfg, s, row).state;
      && NewInstances(cfg, r, s) == CreateOf(cfg, s.existing.Keys, row)
      && |CreateOf(cfg, s.existing.Keys, row)| + (if RoutedToUpdate(cfg, s.existing.Keys, row) then 1 else 0) == 1
      && r.updatedCount - s.updatedCount <= (if RoutedToUpdate(cfg, s.existing.Keys, row) then 1 else 0)
  {
    var r := Step(cfg, s, row).state;
    if RoutedToUpdate(cfg, s.existing.Keys, row) {
      assert r.created[|s.created|..] == [];
      assert r.deferred[|s.deferred|..] == [];
    } else {
      var obj := Construct(cfg.model, RowMap(cfg, row)).value;
      if cfg.useBulkCreate {
        assert r.deferred[|s.deferred|..] == [obj];
      } else {
        assert r.created[|s.created|..] == [obj];
      }
    }
  }

  /** The number of rows routed to an update. */
  function UpdateRouted(cfg: Config, keys: set<Value>, rows: seq<seq<Value>>): (n: nat)
    ensures n <= |rows|
  {
    if rows == [] then 0
    else (if RoutedToUpdate(cfg, keys, rows[0]) then 1 else 0) + UpdateRouted(cfg, keys, rows[1..])
  }

  /** The instances a run created, saved at once or deferred. */
  function NewInstances(cfg: Config, r: RunState, s: RunState): seq<Instance>
    requires s.created <= r.created && s.deferred <= r.deferred
  {
    if cfg.useBulkCreate then r.deferred[|s.deferred|..] else r.created[|s.created|..]
  }

  lemma ComposeNew(cfg: Config, s: RunState, s': RunState, r: RunState)
    requires s.created <= s'.created <= r.created && s.deferred <= s'.deferred <= r.deferred
    ensures NewInstances(cfg, r, s) == NewInstances(cfg, s', s) + NewInstances(cfg, r, s')
  {
    assert r.deferred[|s.deferred|..] == s'.deferred[|s.deferred|..] + r.deferred[|s'.deferred|..];
    assert r.created[|s.created|..] == s'.created[|s.created|..] + r.created[|s'.created|..];
  }

  /** Partition rule: in a completed loop every row not routed to an update is
      built as a new instance from its value map, in row order, and is either
      deferred (bulk create on) or saved at once (off); so creates plus rows
      routed to an update account for every row, and the update count grows by
      at most the number of rows routed to an update. */
  lemma {:induction false} Partition(cfg: Config, s: RunState, rows: seq<seq<Value>>)
    requires ProcessRows(cfg, s, rows).RowsDone?
    ensures var r := ProcessRows(cfg, s, rows).state;
      && NewInstances(cfg, r, s) == CreatesFor(cfg, s.existing.Keys, rows)
      && |NewInstances(cfg, r, s)| + UpdateRouted(cfg, s.existing.Keys, rows) == |rows|
      && r.updatedCount - s.updatedCount <= UpdateRouted(cfg, s.existing.Keys, rows)
    decreases |rows|
  {
    if rows != [] {
      var s' := Step(cfg, s, rows[0]).state;
      var r := ProcessRows(cfg, s', rows[1..]).state;
      assert ProcessRows(cfg, s, rows).state == r;
      StepPartition(cfg, s, rows[0]);
      Partition(cfg, s', rows[1..]);
      ComposeNew(cfg, s, s', r);
    }
  }

  /** With `update` off every row is a create, even one whose primary key
      matches a stored instance, and no update is counted. */
  lemma NoUpdateAllCreates(cfg: Config, s: RunState, rows: seq<seq<Value>>)
    requires !cfg.update
    requires ProcessRows(cfg, s, rows).RowsDone?
    ensures var r := ProcessRows(cfg, s, rows).state;
      && |NewInstances(cfg, r, s)| == |rows|
      && r.updatedCount == s.updatedCount
      && r.existing == s.existing
  {
    Partition(cfg, s, rows);
    NoUpdateRouted(cfg, s.existing.Keys, rows);
  }

  lemma CreatesWhenNoUpdate(cfg: Config, s: RunState, rows: seq<seq<Value>>)
    ensures !cfg.update && ProcessRows(cfg, s, rows).RowsDone? ==>
      |NewInstances(cfg, ProcessRows(cfg, s, rows).state, s)| == |rows|
  {
    if !cfg.update && ProcessRows(cfg, s, rows).RowsDone? {
      NoUpdateAllCreates(cfg, s, rows);
    }
  }

  lemma {:induction false} NoUpdateRouted(cfg: Config, keys: set<Value>, rows: seq<seq<Value>>)
    requires !cfg.update
    ensures UpdateRouted(cfg, keys, rows) == 0
    decreases |rows|
  {
    if rows != [] {
      NoUpdateRouted(cfg, keys, rows[1..]);
    }
  }

  /** In a completed loop, a row not routed to an update was built into a new
      instance from its value map. */
  lemma CompletedRowBuilt(cfg: Config, s: RunState, rows: seq<seq<Value>>, k: nat)
    requires k < |rows| && ProcessRows(cfg, s, rows).RowsDone?
    requires !RoutedToUpdate(cfg, s.existing.Keys, rows[k])
    ensures Construct(cfg.model, RowMap(cfg, rows[k])).Ok?
    ensures CreateOf(cfg, s.existing.Keys, rows[k]) == [Construct(cfg.model, RowMap(cfg, rows[k])).value]
  {
    CompletedEveryStep(cfg, s, rows);
    var before := Prefix(cfg, s, rows, k).state;
    assert before.existing.Keys == s.existing.Keys;
    assert Step(cfg, before, rows[k]).RowsDone?;
  }

  /** The existing map is not extended inside the loop: in a completed loop,
      any two rows carrying the same primary key that no loaded instance has
      are both routed to creation and both built into new instances. */
  lemma SameNewPkCreatesBoth(cfg: Config, s: RunState, rows: seq<seq<Value>>, i: nat, j: nat)
    requires i < j < |rows|
    requires RowPk(cfg, rows[i]) == RowPk(cfg, rows[j]) && RowPk(cfg, rows[i]) !in s.existing
    requires ProcessRows(cfg, s, rows).RowsDone?
    ensures !RoutedToUpdate(cfg, s.existing.Keys, rows[i]) && !RoutedToUpdate(cfg, s.existing.Keys, rows[j])
    ensures |CreateOf(cfg, s.existing.Keys, rows[i])| == 1 && |CreateOf(cfg, s.existing.Keys, rows[j])| == 1
  {
    CompletedRowBuilt(cfg, s, rows, i);
    CompletedRowBuilt(cfg, s, rows, j);
  }

  /** A row without the primary-key column is always a create, provided every
      stored instance has a primary-key value other than `None` (as saved rows
      do): its key is `None`, which the loaded map does not hold. */
  lemma MissingPkColumnCreates(cfg: Config, stored: seq<Instance>, row: seq<Value>)
    requires forall i :: 0 <= i < |stored| ==> PkOf(stored[i], cfg.model.pk) != VNone
    requires cfg.model.pk !in Keys(RowMap(cfg, row))
    ensures RowPk(cfg, row) == VNone
    ensures !RoutedToUpdate(cfg, LoadExisting(stored, cfg.model.pk).Keys, row)
  {
  }

  /** The storage's answers may depend on what the run has already saved. A
      unique constraint on new instances (a save is refused when the same
      instance was already created in this run) makes the second of two
      identical create rows raise, with its value map attached and the first
      create kept in the state. */
  lemma DuplicateCreateRaises(cfg: Config, s: RunState, row: seq<Value>, obj: Instance)
    requires !cfg.update && !cfg.useBulkCreate
    requires Construct(cfg.model, RowMap(cfg, row)) == Ok(obj) && obj !in s.created
    requires forall st: RunState, x: Instance :: cfg.saves(st, x) <==> x !in st.created
    ensures ProcessRows(cfg, s, [row, row]) ==
      RowsRaised(SaveFailed(RowMap(cfg, row)), s.(created := s.created + [obj]))
  {
    var s1 := s.(created := s.created + [obj]);
    assert Step(cfg, s, row) == RowsDone(s1);
    ProcessRowsCons(cfg, s, [row, row], s1);
    assert [row, row][1..] == [row];
    assert obj in s1.created;
    assert Step(cfg, s1, row) == RowsRaised(SaveFailed(RowMap(cfg, row)), s1);
  }

  /** Repeating a row that was routed to an update, right after it, finds the
      instance already matching and changes nothing. */
  lemma SameRowTwice(cfg: Config, s: RunState, row: seq<Value>)
    requires RoutedToUpdate(cfg, s.existing.Keys, row)
    requires Step(cfg, s, row).RowsDone?
    ensures var s' := Step(cfg, s, row).state; Step(cfg, s', row) == RowsDone(s')
  {
    var vm := RowMap(cfg, row);
    var pk := RowPk(cfg, row);
    var obj := s.existing[pk];
    var s' := Step(cfg, s, row).state;
    if WillChange(vm, obj) == Ok(true) {
      ApplyThenNoChange(vm, obj);
    }
  }

  /** Running the rows `a + b` is running `a`, then `b` from the state `a` left. */
  lemma {:induction false} ProcessRowsAppend(cfg: Config, s: RunState, a: seq<seq<Value>>, b: seq<seq<Value>>)
    requires ProcessRows(cfg, s, a).RowsDone?
    ensures ProcessRows(cfg, s, a + b) == ProcessRows(cfg, ProcessRows(cfg, s, a).state, b)
    decreases |a|
  {
    if a == [] {
      EmptyThenRest(cfg, s, a, b);
    } else {
      var s1 := CompletedHead(cfg, s, a);
      ConsOfAppend(a, b);
      ProcessRowsCons(cfg, s, a + b, s1);
      ProcessRowsAppend(cfg, s1, a[1..], b);
    }
  }

  lemma EmptyThenRest(cfg: Config, s: RunState, a: seq<seq<Value>>, b: seq<seq<Value>>)
    requires a == []
    ensures ProcessRows(cfg, s, a) == RowsDone(s) && a + b == b
  {
  }

  /** A completed loop completed its first step and went on from its state. */
  lemma CompletedHead(cfg: Config, s: RunState, a: seq<seq<Value>>) returns (s1: RunState)
    requires a != [] && ProcessRows(cfg, s, a).RowsDone?
    ensures Step(cfg, s, a[0]) == RowsDone(s1)
    ensures ProcessRows(cfg, s, a) == ProcessRows(cfg, s1, a[1..])
  {
    s1 := Step(cfg, s, a[0]).state;
  }

  lemma ConsOfAppend<T>(a: seq<T>, b: seq<T>)
    requires a != []
    ensures (a + b)[0] == a[0] && (a + b)[1..] == a[1..] + b
  {
  }

  /** The loop up to row `j` goes through row `i` and then runs the rows between. */
  lemma ThroughRow(cfg: Config, s: RunState, rows: seq<seq<Value>>, i: nat, j: nat, s1: RunState)
    requires i < j <= |rows| && Prefix(cfg, s, rows, i).RowsDone?
    requires Step(cfg, Prefix(cfg, s, rows, i).state, rows[i]) == RowsDone(s1)
    ensures Prefix(cfg, s, rows, j) == ProcessRows(cfg, s1, rows[i + 1..j])
  {
    var si := Prefix(cfg, s, rows, i).state;
    var rest := [rows[i]] + rows[i + 1..j];
    SplitThrough(rows, i, j);
    ProcessRowsAppend(cfg, s, rows[..i], rest);
    ProcessRowsCons(cfg, si, rest, s1);
  }

  lemma SplitThrough<T>(rows: seq<T>, i: nat, j: nat)
    requires i < j <= |rows|
    ensures rows[..j] == rows[..i] + ([rows[i]] + rows[i + 1..j])
    ensures ([rows[i]] + rows[i + 1..j])[0] == rows[i]
    ensures ([rows[i]] + rows[i + 1..j])[1..] == rows[i + 1..j]
  {
    assert rows[..j] == rows[..i] + rows[i..j];
    assert rows[i..j] == [rows[i]] + rows[i + 1..j];
  }

  /** Repeating an update row later in the table changes nothing, provided no
      update row in between names the same instance: the first occurrence left
      that instance agreeing with the row, and nothing touched it since. */
  lemma SameRowLater(cfg: Config, s: RunState, rows: seq<seq<Value>>, i: nat, j: nat)
    requires i < j < |rows| && rows[j] == rows[i]
    requires RoutedToUpdate(cfg, s.existing.Keys, rows[i])
    requires forall k :: i < k < j && RoutedToUpdate(cfg, s.existing.Keys, rows[k]) ==>
      RowPk(cfg, rows[k]) != RowPk(cfg, rows[i])
    requires Prefix(cfg, s, rows, j).RowsDone?
    ensures var sj := Prefix(cfg, s, rows, j).state;
      Step(cfg, sj, rows[j]) == RowsDone(sj)
  {
    var p := RowPk(cfg, rows[i]);
    var sj := Prefix(cfg, s, rows, j).state;
    PrefixOfCompleted(cfg, s, rows, i, j);
    var si := Prefix(cfg, s, rows, i).state;
    var s1 := Step(cfg, si, rows[i]).state;
    StepSettlesRow(cfg, si, rows[i]);
    ThroughRow(cfg, s, rows, i, j, s1);
    var mid := rows[i + 1..j];
    forall k | 0 <= k < |mid| && RoutedToUpdate(cfg, s1.existing.Keys, mid[k])
      ensures RowPk(cfg, mid[k]) != p
    {
      assert mid[k] == rows[i + 1 + k];
    }
    UntouchedKey(cfg, s1, mid, p);
    assert sj.existing[p] == s1.existing[p];
    assert WillChange(RowMap(cfg, rows[j]), sj.existing[p]) == Ok(false);
  }

  /** A completed loop up to row `j` completed the loop up to every earlier row
      `i`, and the step on row `i`. */
  lemma PrefixOfCompleted(cfg: Config, s: RunState, rows: seq<seq<Value>>, i: nat, j: nat)
    requires i < j <= |rows| && Prefix(cfg, s, rows, j).RowsDone?
    ensures Prefix(cfg, s, rows, i).RowsDone?
    ensures Step(cfg, Prefix(cfg, s, rows, i).state, rows[i]).RowsDone?
  {
    var front := rows[..j];
    CompletedEveryStep(cfg, s, front);
    assert front[..i] == rows[..i];
    assert front[i] == rows[i];
    assert Prefix(cfg, s, front, i) == Prefix(cfg, s, rows, i);
  }

  /** Every row routed to an update already agrees with its instance in `existing`. */
  ghost predicate Settled(cfg: Config, existing: map<Value, Instance>, rows: seq<seq<Value>>) {
    forall i :: 0 <= i < |rows| && RoutedToUpdate(cfg, existing.Keys, rows[i]) ==>
      WillChange(RowMap(cfg, rows[i]), existing[RowPk(cfg, rows[i])]) == Ok(false)
  }

  /** No two rows routed to an update name the same instance. */
  ghost predicate DistinctUpdatePks(cfg: Config, keys: set<Value>, rows: seq<seq<Value>>) {
    forall i, j :: 0 <= i < j < |rows| && RoutedToUpdate(cfg, keys, rows[i]) ==>
      RowPk(cfg, rows[i]) != RowPk(cfg, rows[j])
  }

  /** Over settled rows the loop changes no instance and saves no update. */
  lemma {:induction false} SettledRunWritesNothing(cfg: Config, s: RunState, rows: seq<seq<Value>>)
    requires Settled(cfg, s.existing, rows)
    ensures var r := ProcessRows(cfg, s, rows).state;
      && r.existing == s.existing
      && r.savedUpdates == s.savedUpdates
      && r.updatedCount == s.updatedCount
    decreases |rows|
  {
    if rows != [] {
      var st := Step(cfg, s, rows[0]);
      if st.RowsDone? {
        assert st.state.existing == s.existing;
        assert st.state.savedUpdates == s.savedUpdates;
        forall i | 0 <= i < |rows[1..]| && RoutedToUpdate(cfg, s.existing.Keys, rows[1..][i])
          ensures WillChange(RowMap(cfg, rows[1..][i]), s.existing[RowPk(cfg, rows[1..][i])]) == Ok(false)
        {
          assert rows[1..][i] == rows[i + 1];
        }
        SettledRunWritesNothing(cfg, st.state, rows[1..]);
      }
    }
  }

  /** The loop never touches the instance under a key that no row routed to an
      update names. */
  lemma {:induction false} UntouchedKey(cfg: Config, s: RunState, rows: seq<seq<Value>>, p: Value)
    requires p in s.existing
    requires forall i :: 0 <= i < |rows| && RoutedToUpdate(cfg, s.existing.Keys, rows[i]) ==>
      RowPk(cfg, rows[i]) != p
    ensures ProcessRows(cfg, s, rows).state.existing[p] == s.existing[p]
    decreases |rows|
  {
    if rows != [] {
      var st := Step(cfg, s, rows[0]);
      if st.RowsDone? {
        assert RoutedToUpdate(cfg, s.existing.Keys, rows[0]) ==> RowPk(cfg, rows[0]) != p;
        forall i | 0 <= i < |rows[1..]| && RoutedToUpdate(cfg, st.state.existing.Keys, rows[1..][i])
          ensures RowPk(cfg, rows[1..][i]) != p
        {
          assert rows[1..][i] == rows[i + 1];
        }
        UntouchedKey(cfg, st.state, rows[1..], p);
      }
    }
  }

  /** After one step on a row routed to an update, its instance agrees with the
      row's value map. */
  lemma StepSettlesRow(cfg: Config, s: RunState, row: seq<Value>)
    requires RoutedToUpdate(cfg, s.existing.Keys, row)
    requires Step(cfg, s, row).RowsDone?
    ensures WillChange(RowMap(cfg, row), Step(cfg, s, row).state.existing[RowPk(cfg, row)]) == Ok(false)
  {
    var vm := RowMap(cfg, row);
    var obj := s.existing[RowPk(cfg, row)];
    StepUpdateCases(cfg, s, row);
    if WillChange(vm, obj) == Ok(true) {
      ApplyThenNoChange(vm, obj);
    }
  }

  /** Counts: a completed step on a row routed to an update either found
      nothing to change and left the state alone, or applied the row, had the
      storage save the result, stored it and counted one update. */
  lemma StepUpdateCases(cfg: Config, s: RunState, row: seq<Value>)
    requires RoutedToUpdate(cfg, s.existing.Keys, row)
    requires Step(cfg, s, row).RowsDone?
    ensures var vm := RowMap(cfg, row);
      var obj := s.existing[RowPk(cfg, row)];
      var r := Step(cfg, s, row).state;
      || (WillChange(vm, obj) == Ok(false) && r == s)
      || (&& WillChange(vm, obj) == Ok(true)
          && ApplyValueMap(vm, obj).Applied?
          && cfg.saves(s, ApplyValueMap(vm, obj).inst)
          && r.existing[RowPk(cfg, row)] == ApplyValueMap(vm, obj).inst
          && r.savedUpdates == s.savedUpdates + [ApplyValueMap(vm, obj).inst]
          && r.updatedCount == s.updatedCount + 1)
  {
  }

  /** A completed loop over rows whose update-routed primary keys are distinct
      leaves every such row's instance agreeing with the row. */
  lemma {:induction false} RunSettles(cfg: Config, s: RunState, rows: seq<seq<Value>>)
    requires ProcessRows(cfg, s, rows).RowsDone?
    requires DistinctUpdatePks(cfg, s.existing.Keys, rows)
    ensures Settled(cfg, ProcessRows(cfg, s, rows).state.existing, rows)
    decreases |rows|
  {
    if rows != [] {
      var s' := Step(cfg, s, rows[0]).state;
      var r := ProcessRows(cfg, s, rows).state;
      assert forall i, j :: 0 <= i < j < |rows[1..]| ==> rows[1..][i] == rows[i + 1] && rows[1..][j] == rows[j + 1];
      RunSettles(cfg, s', rows[1..]);
      forall i | 0 <= i < |rows| && RoutedToUpdate(cfg, r.existing.Keys, rows[i])
        ensures WillChange(RowMap(cfg, rows[i]), r.existing[RowPk(cfg, rows[i])]) == Ok(false)
      {
        if i == 0 {
          HeadStaysSettled(cfg, s, rows);
        } else {
          assert rows[i] == rows[1..][i - 1];
        }
      }
    }
  }

  /** The first row, when routed to an update, still agrees with its instance
      after the whole loop, since no later update row names that instance. */
  lemma HeadStaysSettled(cfg: Config, s: RunState, rows: seq<seq<Value>>)
    requires rows != [] && ProcessRows(cfg, s, rows).RowsDone?
    requires DistinctUpdatePks(cfg, s.existing.Keys, rows)
    requires RoutedToUpdate(cfg, s.existing.Keys, rows[0])
    ensures var r := ProcessRows(cfg, s, rows).state;
      WillChange(RowMap(cfg, rows[0]), r.existing[RowPk(cfg, rows[0])]) == Ok(false)
  {
    var p := RowPk(cfg, rows[0]);
    var s' := Step(cfg, s, rows[0]).state;
    StepSettlesRow(cfg, s, rows[0]);
    forall k | 0 <= k < |rows[1..]| && RoutedToUpdate(cfg, s'.existing.Keys, rows[1..][k])
      ensures RowPk(cfg, rows[1..][k]) != p
    {
      assert rows[1..][k] == rows[k + 1];
    }
    UntouchedKey(cfg, s', rows[1..], p);
  }

  /** Idempotence: running the loop a second time over the same rows, against
      the instances the first run left, saves no update and counts none,
      provided no two update rows of the input name the same instance. */
  lemma SecondRunUpdatesNothing(cfg: Config, existing: map<Value, Instance>, rows: seq<seq<Value>>)
    requires ProcessRows(cfg, Start(existing), rows).RowsDone?
    requires DistinctUpdatePks(cfg, existing.Keys, rows)
    ensures var first := ProcessRows(cfg, Start(existing), rows).state;
      var second := ProcessRows(cfg, Start(first.existing), rows).state;
      && second.updatedCount == 0
      && second.savedUpdates == []
      && second.existing == first.existing
  {
    var first := ProcessRows(cfg, Start(existing), rows).state;
    RunSettles(cfg, Start(existing), rows);
    SettledRunWritesNothing(cfg, Start(first.existing), rows);
  }

  /** `dict([(m.pk, m) for m in existing_models])`: keyed by primary key; an
      instance whose key recurs later in the list is replaced by the later one. */
  function LoadExisting(stored: seq<Instance>, pkName: string): (m: map<Value, Instance>)
    ensures m.Keys == set i | 0 <= i < |stored| :: PkOf(stored[i], pkName)
    ensures forall i :: (0 <= i < |stored| &&
      forall j :: i < j < |stored| ==> PkOf(stored[j], pkName) != PkOf(stored[i], pkName)) ==>
      m[PkOf(stored[i], pkName)] == stored[i]
  {
    if stored == [] then map[]
    else
      var n := |stored| - 1;
      var prev := LoadExisting(stored[..n], pkName);
      var m := prev[PkOf(stored[n], pkName) := stored[n]];
      LoadExistingStep(stored, stored[..n], pkName, prev, m);
      m
  }

  lemma LoadExistingStep(stored: seq<Instance>, front: seq<Instance>, pkName: string,
                         prev: map<Value, Instance>, m: map<Value, Instance>)
    requires |stored| > 0 && front == stored[..|stored| - 1]
    requires prev.Keys == set i | 0 <= i < |front| :: PkOf(front[i], pkName)
    requires forall i :: (0 <= i < |front| &&
      forall j :: i < j < |front| ==> PkOf(front[j], pkName) != PkOf(front[i], pkName)) ==>
      prev[PkOf(front[i], pkName)] == front[i]
    requires m == prev[PkOf(stored[|stored| - 1], pkName) := stored[|stored| - 1]]
    ensures m.Keys == set i | 0 <= i < |stored| :: PkOf(stored[i], pkName)
    ensures forall i :: (0 <= i < |stored| &&
      forall j :: i < j < |stored| ==> PkOf(stored[j], pkName) != PkOf(stored[i], pkName)) ==>
      m[PkOf(stored[i], pkName)] == stored[i]
  {
    var n := |stored| - 1;
    assert forall i :: 0 <= i < n ==> front[i] == stored[i];
    var keys := set i | 0 <= i < |stored| :: PkOf(stored[i], pkName);
    forall k | k in keys
      ensures k in m.Keys
    {
      var i :| 0 <= i < |stored| && PkOf(stored[i], pkName) == k;
      if i < n {
        assert PkOf(front[i], pkName) == k;
      }
    }
    forall k | k in m.Keys
      ensures k in keys
    {
      if k != PkOf(stored[n], pkName) {
        var i :| 0 <= i < n && PkOf(front[i], pkName) == k;
        assert PkOf(stored[i], pkName) == k;
      }
    }
    forall i | (0 <= i < |stored| &&
      forall j :: i < j < |stored| ==> PkOf(stored[j], pkName) != PkOf(stored[i], pkName))
      ensures m[PkOf(stored[i], pkName)] == stored[i]
    {
      if i < n {
        assert PkOf(stored[n], pkName) != PkOf(stored[i], pkName);
        assert forall j :: i < j < n ==> PkOf(front[j], pkName) != PkOf(front[i], pkName);
      }
    }
  }

  /** The counts `todjango` logs: updated instances and the length of the
      deferred list. */
  datatype Report = Report(updated: nat, created: nat)

  /** The effect of one `todjango` call: the final loop state, the bulk calls
      made, and the counts; or the error with the state and bulk calls reached. */
  datatype WriteOutcome =
    | Completed(state: RunState, batches: seq<seq<Instance>>, report: Report)
    | Raised(error: WriteError, state: RunState, batches: seq<seq<Instance>>)

  /** The loop configuration `todjango` runs with. */
  function RunConfig(table: Table, model: ModelClass, update: bool, useBulkCreate: bool,
                     saves: SaveAnswers): Config {
    Config(model, table.header, update, useBulkCreate, saves)
  }

  /** The existing-instance map before the loop: the stored instances keyed by
      primary key with `update` on, empty with it off. */
  function InitialExisting(stored: seq<Instance>, model: ModelClass, update: bool): map<Value, Instance> {
    if update then LoadExisting(stored, model.pk) else map[]
  }

  /** The storage's answer to one bulk call of a run: given the row loop's
      final state, the bulk calls already accepted and the chunk. */
  type RunBulkAnswers = (RunState, seq<seq<Instance>>, seq<Instance>) -> bool

  /** The bulk answers once the row loop has ended in state `s`. */
  function AfterLoop(bulkAccepts: RunBulkAnswers, s: RunState): BulkAnswers<Instance> {
    (calls, chunk) => bulkAccepts(s, calls, chunk)
  }

  /** `todjango(table, model, update, create, use_bulk_create)` over the stored
      instances `stored`, with `setting` the configured bulk chunk size and
      `saves`/`bulkAccepts` the storage's answers to `save()` and
      `bulk_create()`; a bulk answer sees the loop's final state as well as
      the bulk calls already accepted. Once the primary-key assertion passes, the run is the
      row loop over the table's data rows from the loaded instances; a raise
      in the loop ends the run before any bulk call; otherwise, with bulk
      create on, the deferred list goes to the chunked bulk insert and its
      calls and failure are the run's. The reported created count is the
      length of the deferred list, so it is 0 when bulk create is off even
      though rows were saved. */
  function ToDjango(table: Table, model: ModelClass, stored: seq<Instance>, update: bool,
                    useBulkCreate: bool, setting: Option<int>, saves: SaveAnswers,
                    bulkAccepts: RunBulkAnswers): (r: WriteOutcome)
    ensures update && model.pk !in FieldSet(model) ==> r == Raised(PkNotAField(model.pk), Start(map[]), [])
    ensures r.Completed? ==>
      && r.report.updated == r.state.updatedCount == |r.state.savedUpdates|
      && r.report.created == |r.state.deferred|
      && (!useBulkCreate ==> r.report.created == 0 && r.batches == [])
      && (useBulkCreate ==> r.state.created == [])
    ensures r.Completed? && useBulkCreate && ChunkSize(None, setting) > 0 ==>
      r.batches == Chunks(r.state.deferred, ChunkSize(None, setting)) && Flatten(r.batches) == r.state.deferred
    ensures r.Completed? && !update ==> r.state.savedUpdates == [] && |r.state.created| + |r.state.deferred| == |table.rows|
    ensures r.Completed? ==>
      ProcessRows(RunConfig(table, model, update, useBulkCreate, saves),
                  Start(InitialExisting(stored, model, update)), table.rows) == RowsDone(r.state)
    ensures !(update && model.pk !in FieldSet(model)) ==>
      var loop := ProcessRows(RunConfig(table, model, update, useBulkCreate, saves),
                              Start(InitialExisting(stored, model, update)), table.rows);
      && (loop.RowsRaised? ==> r == Raised(loop.error, loop.state, []))
      && (loop.RowsDone? && !useBulkCreate ==>
            r == Completed(loop.state, [], Report(loop.state.updatedCount, 0)))
      && (loop.RowsDone? && useBulkCreate ==>
            var bulk := ChunkedBulkCreate(loop.state.deferred, None, setting, AfterLoop(bulkAccepts, loop.state));
            && r.state == loop.state
            && r.batches == bulk.calls
            && (r.Completed? <==> bulk.BulkDone?)
            && (bulk.BulkRaised? && bulk.error.RangeStepZero? ==> r.Raised? && r.error == ChunkStepZero)
            && (bulk.BulkRaised? && bulk.error.BulkFailed? ==>
                  r.Raised? && r.error == BulkCreateFailed(bulk.error.petlChunkData)))
  {
    if update && model.pk !in FieldSet(model) then
      Raised(PkNotAField(model.pk), Start(map[]), [])
    else
      var existing := InitialExisting(stored, model, update);
      var cfg := RunConfig(table, model, update, useBulkCreate, saves);
      match ProcessRows(cfg, Start(existing), table.rows)
      case RowsRaised(e, s) => Raised(e, s, [])
      case RowsDone(s) =>
        CreatesWhenNoUpdate(cfg, Start(existing), table.rows);
        if useBulkCreate then
          match ChunkedBulkCreate(s.deferred, None, setting, AfterLoop(bulkAccepts, s))
          case BulkDone(calls) => Completed(s, calls, Report(s.updatedCount, |s.deferred|))
          case BulkRaised(RangeStepZero, calls) => Raised(ChunkStepZero, s, calls)
          case BulkRaised(BulkFailed(chunk), calls) => Raised(BulkCreateFailed(chunk), s, calls)
        else
          Completed(s, [], Report(s.updatedCount, |s.deferred|))
  }
}
